=== FILE: README.md ===
# MarathiTTS prosody core in Dafny

This project models the prosody core of the MarathiTTS engine (`project.py`). That is everything that decides *what* is synthesized and *how* it is reshaped:

- **Dialect substitution.** This is `MarathiDialect.apply_dialect` with the six dialect tables. Each dialect is an ordered table of `(pattern, replacement)` pairs, applied one `str.replace` at a time. A later pair rewrites what the earlier pairs produced.
- **The emotion and rhythm transform.** This covers `EmotionModifier.modify_audio`, `change_intensity`, `change_rhythm` and the emotion table. The steps are:
  - an intensity spread around the buffer's mean, skipped at 1.0;
  - a resampling to `int(len / speed)` samples, where a negative table factor means the reciprocal of its magnitude;
  - a volume scale.
- **Punctuation segmentation.** `re.findall(r'[^P]+[P]+|\s*$', text)` is written as a direct scanner. The sentence loop then skips blank items. Each kept sentence is classified by the last character of its stripped form:
  - `?` is made louder by 10 dB;
  - `!` is sped up by 1.3;
  - anything else is made softer by 5 dB.
- **Mode orchestration.** The modes are `generate_speech`, `generate_basic_speech` and `generate_punctuated_speech`. The session fields they set are `current_audio_data` and `current_sample_rate`, and `save` writes them.

Modules, one per file:

- `Seqs` (`seqs.dfy`): `Option` and sequence flattening.
- `Dialect` (`dialect.dfy`): Python's `str.replace` for a non-empty pattern, which is leftmost and non-overlapping. Also the table loop, the six profiles, and the link between `replace` and the leftmost-occurrence scan.
- `Emotion` (`emotion.dfy`): audio is a sequence of exact reals. `scipy.signal.resample` is a parameter whose only promise is the output length. It raises for a target of 0 samples, and the model states exactly when each mode asks for one. Quotients are exact reals, and `int()` of a non-negative quotient is taken as its floor. That idealises the code's floating-point division (see "## Left out").
- `Segmenter` (`segmenter.dfy`):
  - the `findall` scanner;
  - `strip`;
  - the blank-item skip;
  - the characterisation of the kept sentences as the maximal "non-marks then marks" blocks, which concatenate to the text between its leading marks and its last mark;
  - classification.
- `Pipeline` (`pipeline.dfy`): both generation modes over a `Backend` of collaborators. The collaborators are synthesis, pydub gain and speedup, the mp3 round trip and resampling. Synthesis, speedup and the mp3 round trip may fail, and their failures become `Err`. Gain is total. Resampling fails exactly for a 0-sample target, which the model decides from the buffer length. That failure comes after the sample rate (and, in punctuated mode, the buffer) has already been stored in the session.

## Model

| member | source | states |
|---|---|---|
| Dialect.ReplaceAll | project.py:30 | Python's `str.replace` for a non-empty pattern: every leftmost, non-overlapping occurrence is replaced, scanning left to right. `ReplaceAllAtFirst` and `FirstMatchIsLeftmost` describe it. |
| Dialect.FirstMatchIsLeftmost | project.py:30 | The scan position `replace` starts from is an occurrence of the pattern, and no occurrence starts earlier. When the scan reports none, the pattern occurs nowhere in the text. |
| Dialect.ReplaceAllAtFirst | project.py:30 | `replace` writes the replacement in place of the leftmost occurrence, keeps the text before it, and continues on the text after it. With no occurrence, the text is returned unchanged. |
| Dialect.ReplaceAllSelf | project.py:30 | Replacing a pattern by itself returns the text unchanged, as the tables' self-mapping entries do. |
| Dialect.ReplaceAllNoMatch | project.py:30 | Text in which the pattern does not occur is returned unchanged. |
| Dialect.ApplyTable | project.py:28-31 | The loop of `apply_dialect`: each `(pattern, replacement)` pair in table order is applied with `ReplaceAll` to the previous output. `ApplyTableAppend`, `ApplyPairNoMatch`, `SelfMappingsAreNoOps` and `Cascade` describe it. |
| Dialect.ApplyDialect | project.py:26-31 | `apply_dialect` of the named dialect: `ApplyTable` with that dialect's table from `ProfileOf`. `StandardIsIdentity` and `KonkaniEffective` describe it for two dialects. |
| Dialect.ApplyTableAppend | project.py:28-31 | Applying a table that is a concatenation is applying the first part, then the second part to its output. |
| Dialect.ApplyPairNoMatch | project.py:28-31 | A table entry whose pattern does not occur in the current text has no effect on the result. |
| Dialect.SelfMappingsAreNoOps | project.py:28-31 | A table acts exactly like the same table with its self-mapping entries removed. |
| Dialect.Cascade | project.py:28-31 | Entries are applied in order, each to the previous output: [a→b, b→c] turns "a" into "c", while the reversed table turns it into "b". |
| Dialect.ProfileOf | project.py:79-111 | Every dialect's table has non-empty patterns, and its rhythm and articulation factors are positive. Only the standard dialect has an empty table. |
| Dialect.StandardIsIdentity | project.py:81 | The standard dialect leaves every text unchanged. |
| Dialect.KonkaniEffective | project.py:106-110 | The Konkani table acts exactly as its six entries other than the self-mapping 'कसं'. |
| Emotion.ChangeIntensity | project.py:62-66 | The result has the input's length and the input's mean. Each sample's deviation from the mean is multiplied by the factor. A factor of 1 returns the input. |
| Emotion.SumOfSpreadAtMean | project.py:64-65 | Spreading around the buffer's own mean leaves the sample sum unchanged. |
| Emotion.SpreadKeepsMean | project.py:64-65 | Spreading around the buffer's own mean leaves the mean unchanged. |
| Emotion.IntensityComposes | project.py:62-66 | Two intensity changes in a row equal one change by the product of the factors. |
| Emotion.IntensityStepMerges | project.py:49-50 | A spread followed by `modify_audio`'s intensity step, which is skipped at 1.0, is one spread by the product. |
| Emotion.IntensityThenParams | project.py:44-60 | An intensity change just before `modify_audio` merges with the emotion's own intensity. The speed and volume steps follow unchanged. |
| Emotion.RhythmTarget | project.py:70-72 | The sample count `change_rhythm` asks for, over exact reals: a factor that is not positive is clamped to 1.0, giving the length itself; for a positive factor it is the q with q ≤ len/factor < q + 1. `RhythmRaisesIff` says when it is 0. |
| Emotion.TruncDiv | project.py:72 | `int(n / f)` for a positive divisor, read over exact reals, is the unique whole number q with q ≤ n/f < q + 1. |
| Emotion.ChangeRhythm | project.py:68-72 | For a positive factor, the output length q satisfies q ≤ len/factor < q + 1. A factor that is not positive acts as 1.0, which resamples to the same length. |
| Emotion.RhythmRaisesIff | project.py:68-72 | `change_rhythm` asks the resampler for 0 samples, and so raises, exactly when a positive factor exceeds the length, or, for a factor that is not positive, when the buffer is empty. |
| Emotion.ResolveSpeed | project.py:53-55 | The resolved speed is always positive. A positive factor is kept. A negative factor gives the reciprocal of its magnitude. |
| Emotion.ParamsOf | project.py:36-42 | No emotion has speed factor 0. Neutral is the only emotion whose intensity and speed are both 1.0. |
| Emotion.ApplyParams | project.py:44-60 | At speed 1.0 the length is kept. Otherwise it is `int(len / resolved speed)`. With intensity and speed both 1.0, every sample is only scaled by the volume. |
| Emotion.ModifyAudio | project.py:44-60 | `modify_audio` for an emotion: `ApplyParams` with that emotion's table row. `NeutralIsPureVolume`, `AngryLengthens`, `SpeedDirection` and `ModifyRaisesIff` describe it per emotion. |
| Emotion.ModifyRaisesIff | project.py:36-60 | `modify_audio` raises exactly for a buffer of at most one sample under happy or punctuation (speeds 1.1 and 1.2), and for an empty buffer under angry or sad. Neutral never raises. |
| Emotion.NeutralIsPureVolume | project.py:37 | The neutral emotion multiplies every sample by exactly 0.9 and does nothing else. |
| Emotion.AngryLengthens | project.py:39 | Angry's -1.13 stretches the buffer to `int(len * 1.13)` samples. That is never shorter than the input, and longer from 8 samples on. |
| Emotion.SpeedDirection | project.py:38-41 | Happy and the punctuation profile never lengthen the buffer; sad never shortens it. |
| Segmenter.RunLengthPrefix | project.py:171 | Every character in the run counted at the front is of the run's kind. The next character, if any, is not, so the run is maximal. |
| Segmenter.TrailingSpaces | project.py:171 | The counted suffix is all whitespace and is maximal, which is the `\s*` match before the end. |
| Segmenter.FindAll | project.py:171-175 | The `findall` result is never empty, so the fallback to `[text]` is never taken. |
| Segmenter.StripEmpty | project.py:193-194 | An item is skipped exactly when it consists only of whitespace. |
| Segmenter.StripKeepsLast | project.py:211 | Stripping a text that ends in a non-space keeps that character last. |
| Segmenter.Kept | project.py:192-194 | The items the loop does not skip, in order: those whose stripped form is not empty. `SentencesAreBlocks` and `SentencesCoverText` describe the result on the `findall` items. |
| Segmenter.EndMatchesSkipped | project.py:171-172 | The items contributed by `\s*$` at the end are all blank, so the loop skips them. |
| Segmenter.SentencesAreBlocks | project.py:171-172 | After blank items are dropped, the `findall` items are exactly the scan's blocks, in order. |
| Segmenter.BlocksAreBlocks | project.py:171 | Every block is a non-empty run of non-marks followed by a non-empty run of marks, and nothing else. |
| Segmenter.BlocksFlatten | project.py:171 | The blocks concatenated in order are the text with its leading marks removed and with everything after its last mark removed. |
| Segmenter.SentencesCoverText | project.py:171-194 | Every synthesized sentence is such a block. Concatenated in order, they are exactly the text between its leading marks and its last mark. |
| Segmenter.NoSentenceIff | project.py:171-194 | No sentence is synthesized if and only if every mark of the text lies in its leading run of marks, in particular when the text has no mark. |
| Segmenter.Classify | project.py:211-221 | The branch a sentence takes, read from the last character of its stripped form: '?' louder, '!' faster, anything else (an empty strip included) softer. `ClassifyBlock` and `ClassifyClosing` describe it. |
| Segmenter.ClassifyBlock | project.py:211-221 | A sentence is made louder if and only if its last character is '?', and sped up if and only if it is '!'. It is made softer if and only if it is one of the other marks. |
| Segmenter.ClassifyClosing | project.py:211-221 | Words closed by a single mark are classified by that mark. |
| Segmenter.SentenceThenRest | project.py:171 | Words closed by a single mark are split off as one block, and the scan goes on after them. |
| Segmenter.LeadingMarkDropped | project.py:171 | A mark at the front of the text contributes no block. |
| Segmenter.LastSentence | project.py:171 | Words closed by a mark and followed only by mark-free text give exactly one block. The trailing text is dropped. |
| Segmenter.TwoPlainSentences | project.py:171-194 | Text that opens with words, then has words and a single mark twice, then mark-free text, yields exactly the two closed sentences. |
| Segmenter.TwoSentences | project.py:171-194 | A leading mark, then words and a mark, twice, then mark-free text, yields exactly the two closed sentences. |
| Pipeline.DialectShape | project.py:144-145 | After the dialect's rhythm and articulation, the length q satisfies q ≤ len/rhythm < q + 1, and the mean is that of the resampled buffer. |
| Pipeline.GenerateBasic | project.py:128-160 | Basic mode reports a synthesis failure exactly when synthesis of the dialect text fails. After a successful synthesis it fails exactly when the dialect rhythm gives 0 samples or the emotion's retiming raises on the shaped buffer. That is a resampling failure carrying the stored rate and no stored buffer. On success, the buffer played and saved is the dialect rhythm, then the articulation spread, then the emotion transform applied to the synthesized samples. That buffer is the one kept for `save`, at the rate read back. |
| Pipeline.GeneratePunctuated | project.py:162-265 | On success, the buffer played is the dialect-shaped version of the kept one. A resampling failure carries the re-read buffer already stored, and the dialect rhythm maps that buffer to 0 samples. |
| Pipeline.Finish | project.py:237-243 | After the re-read, the stitched buffer and its rate are kept. The mode fails exactly when the dialect rhythm gives 0 samples, with a resampling failure carrying that buffer and rate. Otherwise it plays the dialect-shaped buffer. |
| Pipeline.GenerateSpeech | project.py:118-126 | Each key goes to its own mode. Non-punctuation keys report a synthesis failure exactly when synthesis fails. After a successful synthesis they fail exactly when a resampling step gets a 0-sample target. Otherwise they play and keep the rhythm, articulation and emotion rendering of the synthesized samples, at its rate. On success, the punctuation key keeps the mp3 round trip of the concatenated treated sentences (every kept sentence rendered, and there is at least one), and plays its dialect-shaped version. It fails with the failure of the first kept sentence that does not synthesize or whose speedup raises. It reports no audio when there is no sentence. |
| Pipeline.SentenceItems | project.py:171-175 | The `findall` items, with the `[text]` fallback for an empty result. The `FindAll` contract shows the fallback is never taken. |
| Pipeline.Treat | project.py:213-221 | The per-sentence branch: +10 dB gain for louder, pydub `speedup` at 1.3 with 150 ms chunks and 25 ms crossfade for faster, -5 dB gain for softer. Only the speedup can fail. `StitchIsConcatenation` uses it through `Piece`. |
| Pipeline.Append | project.py:224-227 | The `full_audio` accumulator: the first piece seeds it, each later piece is concatenated after it. `AppendAssoc` and `StitchIsConcatenation` describe the result of the loop. |
| Pipeline.Stitch | project.py:190-227 | The sentence loop fails only with a synthesis or a speedup failure. A seeded accumulator stays seeded. |
| Pipeline.Failing | project.py:196-221 | The index returned is the first sentence whose synthesis fails or whose treatment raises. Every earlier sentence renders, and the number of sentences is returned when all render. |
| Pipeline.StitchIsConcatenation | project.py:190-230 | The loop handles exactly the non-blank items. If every one synthesizes and is treated without raising, their treated audio is appended to the accumulator in input order with nothing in between. Otherwise the call fails with the failure of the first item that does not: a synthesis or a speedup failure. |
| Pipeline.PunctuatedSpec | project.py:162-265 | Punctuated mode end to end. The first kept sentence that does not render gives its synthesis or speedup failure. No sentence, or an empty stitched buffer, gives "no audio". A failed mp3 round trip gives a codec failure. A re-read buffer the dialect rhythm maps to 0 samples gives a resampling failure. Otherwise the re-read stitched audio is kept and its dialect-shaped version is played. No emotion transform is applied. |
| Pipeline.UnpunctuatedTextFails | project.py:171-175 | Text whose marks all lie in its leading run, including text without marks, always ends with "no audio", whatever the collaborators do. |
| Pipeline.StandardNeutralBasic | project.py:128-156 | Standard dialect with neutral emotion outputs the same-length resampling of the synthesized buffer, scaled by 0.9. An empty synthesized buffer makes the resampler raise. |
| Pipeline.VarhadiOneSampleFails | project.py:141-146 | A one-sample synthesis under Varhadi (rhythm 1.1) is resampled to `int(1 / 1.1) == 0` samples, so basic mode fails with a resampling failure for every emotion. |
| Pipeline.BasicIntensitiesCompose | project.py:144-146 | In basic mode, the dialect's articulation and the emotion's intensity act as one spread by their product, followed by the emotion's speed and volume. |
| Pipeline.Commit | project.py:238-239 | The session after a call. A success stores its kept buffer and rate (lines 141 and 148 in basic mode, 238-239 in punctuated mode). A resampling failure has stored the rate (line 141 or 238), and in punctuated mode the buffer. Every other failure stores nothing. `FailureKeepsSession` and the `SaveAfter` lemmas describe it over the generation calls. |
| Pipeline.Save | project.py:280-284 | `save`: the kept buffer at the kept rate when a buffer exists and the rate is present and not 0, otherwise `False` (`None`). `SaveAfterBasic`, `SaveAfterPunctuated` and the two resampling-failure lemmas describe what it writes. |
| Pipeline.SaveAfterPunctuated | project.py:237-250 | After punctuated mode, `save` writes the buffer from before the dialect shaping, not the played one. For a rhythm factor above 1, that buffer is strictly longer whenever it is not empty. |
| Pipeline.SaveAfterBasic | project.py:280-284 | After basic mode, `save` writes the same buffer that was played. |
| Pipeline.FailureKeepsSession | project.py:128-265 | A call that fails before any resampling step leaves the session, and so what `save` writes, unchanged. In basic mode that is a failed synthesis. In punctuated mode it is a kept sentence that does not render, no kept sentence, an empty stitched buffer, or a failed mp3 round trip. |
| Pipeline.SaveAfterBasicResampleFailure | project.py:141-146 | After basic mode fails in resampling, `save` writes the previous buffer at the sample rate of the failed synthesis. |
| Pipeline.SaveAfterPunctuatedResampleFailure | project.py:237-242 | After punctuated mode fails in resampling, `save` writes the re-read stitched buffer, although the call returned `None`. |

## Left out

- Synthesis (gTTS), the mp3 codecs (`sf.read`, `AudioSegment.from_mp3`, `export`) and pydub's gain and `speedup` are `Backend` function values. They are external code, and only their results enter the model.
- pydub's `speedup` raises for a segment too short to cut into two chunks of its computed size. The model lets the collaborator fail on any segment and does not state that length condition, because the chunk arithmetic is pydub's.
- `full_audio += audio` is modelled as concatenation. pydub first synchronises the frame rate, sample width and channel count of the two segments. That step is not modelled, because every segment comes from the same synthesizer in the same format.
- `scipy.signal.resample` is likewise a parameter. Its numerics are not modelled. The model keeps the promise that the output has the requested length, and the fact that it raises when 0 samples are requested.
- Audio is a mono sequence of exact reals. IEEE floating point, numpy dtypes and multi-channel arrays are not modelled.
- `if full_audio:` tests pydub's `len()`, which is `round(1000 * frames / frame_rate)` milliseconds. It is modelled as "the stitched buffer has samples". So the model does not report "no audio" for a non-empty stitched buffer of at most half a millisecond, which the code does.
- Temporary files, their deletion, `temp_file`, `play`, `stop`, `cleanup`, the user interface and threads are I/O outside the prosody core.
- The exception wrappers and their messages are reduced to `Err` with a `Failure` reason. Unknown dialect or emotion keys (a `KeyError`) cannot arise, because the keys are closed datatypes.
- The profile's `style` field is not modelled, because it is never read. The emotion table's `pause_length` is carried but unused, as in the code.
- A failure of the wav writes after `current_audio_data` is set is not modelled, because writes are not modelled. That failure would leave a partly updated session.
- Emotion.TruncDiv: the model divides exactly, but the code divides in binary floating point. `int(n / f)` can then fall one below the exact floor. For example, 33 / 1.1 is 29.999999999999996 in floating point, giving 29 samples where the model gives 30. Likewise most multiples of 28 (28, 56, 84, …) divided by 1.12 give one sample less. So the lengths stated by `ChangeRhythm`, `DialectShape` and `ApplyParams` are one sample too long at such lengths under the factors 1.1 (Varhadi, happy) and 1.12 (Ahirani, Nagpuri). The 0-sample targets are unaffected: for every factor in the tables, the smallest length that reaches the factor gives a quotient well above 1.
- Emotion.RhythmTarget: it is the exact-real target count, so it shares the one-sample difference named on the `Emotion.TruncDiv` line.
- Emotion.ResolveSpeed: it requires a non-zero factor. The code would raise a division by zero at 0, and no table entry is 0.
- Dialect.ReplaceAll: it requires a non-empty pattern. Python's empty-pattern `replace` (insertion between characters) is not modelled, because no table contains an empty pattern.
- Four behaviours of the code worth knowing:
  - empty text is not rejected up front;
  - text without any mark produces no audio in punctuated mode, because the `[text]` fallback is unreachable;
  - punctuated mode keeps for `save` the buffer from before the dialect rhythm and articulation, while it plays the shaped one.
  - a resampling failure returns `None` after the sample rate (and, in punctuated mode, the buffer) was stored, so a later `save` writes audio from a failed call or a previous buffer at a new rate.

=== FILE: dialect.dfy ===
/** Dialect substitution: a dialect profile rewrites text by applying its
    ordered (pattern, replacement) table, one pair at a time, each pair acting
    on the text the previous pairs produced. */
module Dialect {
  import opened Seqs

  /** A substitution table, in dictionary insertion order. */
  type Table = seq<(Text, Text)>

  /** `pat` occurs in `s` starting at index `j`. */
  predicate MatchAt(s: Text, pat: Text, j: nat)
  {
    j + |pat| <= |s| && s[j..j + |pat|] == pat
  }

  /** No occurrence of `pat` in `s` starts before index `k`. */
  predicate NoMatchBefore(s: Text, pat: Text, k: nat)
  {
    forall j: nat :: j < k ==> !MatchAt(s, pat, j)
  }

  /** Python's `s.replace(pat, rep)` for a non-empty `pat`: every
      non-overlapping occurrence, scanning left to right, is replaced. */
  function ReplaceAll(s: Text, pat: Text, rep: Text): Text
    requires |pat| > 0
    decreases |s|
  {
    if |s| < |pat| then s
    else if s[..|pat|] == pat then rep + ReplaceAll(s[|pat|..], pat, rep)
    else [s[0]] + ReplaceAll(s[1..], pat, rep)
  }

  lemma MatchAtCons(c: char, t: Text, pat: Text, j: nat)
    requires j >= 1
    ensures MatchAt([c] + t, pat, j) <==> MatchAt(t, pat, j - 1)
  {
    if j + |pat| <= |[c] + t| {
      assert ([c] + t)[j..j + |pat|] == t[j - 1..j - 1 + |pat|];
    }
  }

  /** Where the leftmost occurrence of `pat` in `s` starts, or `|s|` when
      there is none (the scan of `str.find`). */
  function FirstMatch(s: Text, pat: Text): (f: nat)
    requires |pat| > 0
    ensures f <= |s|
    ensures f < |s| ==> f + |pat| <= |s|
    decreases |s|
  {
    if |s| < |pat| then |s|
    else if s[..|pat|] == pat then 0
    else 1 + FirstMatch(s[1..], pat)
  }

  /** `FirstMatch` finds an occurrence, and no occurrence starts before it;
      when it reports none, the pattern occurs nowhere. */
  lemma {:induction false} FirstMatchIsLeftmost(s: Text, pat: Text)
    requires |pat| > 0
    ensures FirstMatch(s, pat) < |s| ==> MatchAt(s, pat, FirstMatch(s, pat))
    ensures NoMatchBefore(s, pat, FirstMatch(s, pat))
    decreases |s|
  {
    if |s| >= |pat| && s[..|pat|] != pat {
      var t := s[1..];
      var f := FirstMatch(s, pat);
      FirstMatchIsLeftmost(t, pat);
      assert s == [s[0]] + t;
      if f < |s| {
        MatchAtCons(s[0], t, pat, f);
      }
      forall j: nat | j < f
        ensures !MatchAt(s, pat, j)
      {
        if j > 0 {
          MatchAtCons(s[0], t, pat, j);
        }
      }
    }
  }

  /** `replace` rewrites the leftmost occurrence and resumes scanning just
      after it; without an occurrence the text is unchanged. */
  predicate ReplacesFirst(s: Text, pat: Text, rep: Text)
    requires |pat| > 0
  {
    ReplacesAt(s, pat, rep, FirstMatch(s, pat))
  }

  /** `ReplaceAll(s)` is what cutting `s` at `f` (when `f` is inside it) gives. */
  predicate ReplacesAt(s: Text, pat: Text, rep: Text, f: nat)
    requires |pat| > 0
    requires f < |s| ==> f + |pat| <= |s|
  {
    if f < |s| then ReplaceAll(s, pat, rep) == s[..f] + rep + ReplaceAll(s[f + |pat|..], pat, rep)
    else ReplaceAll(s, pat, rep) == s
  }

  /** The characterisation of `replace` by its leftmost occurrence, spelled out. */
  lemma ReplaceAllAtFirst(s: Text, pat: Text, rep: Text)
    requires |pat| > 0
    ensures var f := FirstMatch(s, pat);
      if f < |s| then ReplaceAll(s, pat, rep) == s[..f] + rep + ReplaceAll(s[f + |pat|..], pat, rep)
      else ReplaceAll(s, pat, rep) == s
  {
    AllReplaceFirst(s, pat, rep);
  }

  /** By induction on the text: a leading character that starts no occurrence
      is copied and shifts the cut by one. */
  lemma {:induction false} AllReplaceFirst(s: Text, pat: Text, rep: Text)
    requires |pat| > 0
    ensures ReplacesFirst(s, pat, rep)
    decreases |s|
  {
    if |s| < |pat| {
    } else if s[..|pat|] == pat {
      ReplacesFirstHere(s, pat, rep);
    } else {
      var g := FirstMatch(s[1..], pat);
      AllReplaceFirst(s[1..], pat, rep);
      assert ReplacesAt(s[1..], pat, rep, g);
      ReplacesShift(s, pat, rep, g);
      assert FirstMatch(s, pat) == g + 1;
    }
  }

  lemma ReplacesFirstHere(s: Text, pat: Text, rep: Text)
    requires |pat| > 0 && |s| >= |pat| && s[..|pat|] == pat
    ensures ReplacesFirst(s, pat, rep)
  {
    assert FirstMatch(s, pat) == 0;
    assert s[..0] + rep == rep;
  }

  /** Prepending a character that starts no occurrence shifts the cut by one. */
  lemma ReplacesShift(s: Text, pat: Text, rep: Text, g: nat)
    requires |pat| > 0 && |s| >= |pat| && s[..|pat|] != pat
    requires g <= |s| - 1 && (g < |s| - 1 ==> g + |pat| <= |s| - 1)
    requires ReplacesAt(s[1..], pat, rep, g)
    ensures ReplacesAt(s, pat, rep, g + 1)
  {
    if g < |s| - 1 {
      ReplaceFoundLater(s, pat, rep, g);
    } else {
      ReplaceFoundNone(s, pat, rep);
    }
  }

  lemma ReplaceFoundNone(s: Text, pat: Text, rep: Text)
    requires |pat| > 0 && |s| >= |pat| && s[..|pat|] != pat
    requires ReplaceAll(s[1..], pat, rep) == s[1..]
    ensures ReplaceAll(s, pat, rep) == s
  {
    assert ReplaceAll(s, pat, rep) == [s[0]] + s[1..];
  }

  lemma ReplaceFoundLater(s: Text, pat: Text, rep: Text, g: nat)
    requires |pat| > 0 && |s| >= |pat| && s[..|pat|] != pat
    requires g + 1 + |pat| <= |s|
    requires ReplaceAll(s[1..], pat, rep) == s[1..][..g] + rep + ReplaceAll(s[1..][g + |pat|..], pat, rep)
    ensures ReplaceAll(s, pat, rep) == s[..g + 1] + rep + ReplaceAll(s[g + 1 + |pat|..], pat, rep)
  {
    var t := s[1..];
    var x := t[..g];
    var after := ReplaceAll(s[g + 1 + |pat|..], pat, rep);
    assert ReplaceAll(t, pat, rep) == x + rep + after by {
      ShiftSlices(s, g, |pat|);
    }
    assert [s[0]] + x == s[..g + 1] by {
      ShiftSlices(s, g, |pat|);
    }
    assert ReplaceAll(s, pat, rep) == [s[0]] + ReplaceAll(t, pat, rep);
    Regroup([s[0]], x, rep, after);
  }

  lemma Regroup(c: Text, x: Text, y: Text, z: Text)
    ensures c + (x + y + z) == (c + x) + y + z
  {
  }

  lemma ShiftSlices(s: Text, g: nat, n: nat)
    requires g + 1 + n <= |s|
    ensures [s[0]] + s[1..][..g] == s[..g + 1]
    ensures s[1..][g + n..] == s[g + 1 + n..]
  {
  }

  /** Replacing a pattern by itself changes nothing (the table's
      self-mapping entries such as 'काय' -> 'काय'). */
  lemma {:induction false} ReplaceAllSelf(s: Text, pat: Text)
    requires |pat| > 0
    ensures ReplaceAll(s, pat, pat) == s
    decreases |s|
  {
    if |s| < |pat| {
    } else if s[..|pat|] == pat {
      ReplaceAllSelf(s[|pat|..], pat);
      assert s[..|pat|] + s[|pat|..] == s;
    } else {
      ReplaceAllSelf(s[1..], pat);
      assert [s[0]] + s[1..] == s;
    }
  }

  /** Text without any occurrence of the pattern is left unchanged. */
  lemma {:induction false} ReplaceAllNoMatch(s: Text, pat: Text, rep: Text)
    requires |pat| > 0
    requires NoMatchBefore(s, pat, |s|)
    ensures ReplaceAll(s, pat, rep) == s
    decreases |s|
  {
    if |s| >= |pat| {
      assert !MatchAt(s, pat, 0);
      forall j: nat | j < |s[1..]|
        ensures !MatchAt(s[1..], pat, j)
      {
        assert s == [s[0]] + s[1..];
        MatchAtCons(s[0], s[1..], pat, j + 1);
      }
      ReplaceAllNoMatch(s[1..], pat, rep);
      assert s == [s[0]] + s[1..];
    }
  }

  /** Every pattern of the table is non-empty (Python's `replace` with an
      empty pattern would insert between characters; no table has one). */
  predicate WellFormed(t: Table)
  {
    forall i :: 0 <= i < |t| ==> |t[i].0| > 0
  }

  /** The loop of `apply_dialect`: one `replace` per entry, in table order,
      each applied to the output of the previous one. */
  function ApplyTable(s: Text, t: Table): Text
    requires WellFormed(t)
    decreases |t|
  {
    if |t| == 0 then s else ApplyTable(ReplaceAll(s, t[0].0, t[0].1), t[1..])
  }

  /** Applying a concatenated table is applying the first part, then the
      second part to its output. */
  lemma {:induction false} ApplyTableAppend(s: Text, t1: Table, t2: Table)
    requires WellFormed(t1) && WellFormed(t2)
    ensures WellFormed(t1 + t2)
    ensures ApplyTable(s, t1 + t2) == ApplyTable(ApplyTable(s, t1), t2)
    decreases |t1|
  {
    assert forall i :: 0 <= i < |t1 + t2| ==> (t1 + t2)[i] == if i < |t1| then t1[i] else t2[i - |t1|];
    if |t1| > 0 {
      assert (t1 + t2)[1..] == t1[1..] + t2;
      ApplyTableAppend(ReplaceAll(s, t1[0].0, t1[0].1), t1[1..], t2);
    } else {
      assert t1 + t2 == t2;
    }
  }

  /** A pair whose pattern never occurs does not affect the result. */
  lemma ApplyPairNoMatch(s: Text, pair: (Text, Text), rest: Table)
    requires |pair.0| > 0 && WellFormed(rest)
    requires NoMatchBefore(s, pair.0, |s|)
    ensures WellFormed([pair] + rest)
    ensures ApplyTable(s, [pair] + rest) == ApplyTable(s, rest)
  {
    ReplaceAllNoMatch(s, pair.0, pair.1);
    assert ([pair] + rest)[1..] == rest;
  }

  /** The table without its self-mapping entries. */
  function Effective(t: Table): (r: Table)
    requires WellFormed(t)
    ensures WellFormed(r)
    ensures forall i :: 0 <= i < |r| ==> r[i].0 != r[i].1
    ensures |r| <= |t|
    decreases |t|
  {
    if |t| == 0 then []
    else if t[0].0 == t[0].1 then Effective(t[1..])
    else [t[0]] + Effective(t[1..])
  }

  /** Self-mapping entries are no-ops: the table acts exactly like its
      effective part. */
  lemma {:induction false} SelfMappingsAreNoOps(s: Text, t: Table)
    requires WellFormed(t)
    ensures ApplyTable(s, t) == ApplyTable(s, Effective(t))
    decreases |t|
  {
    if |t| > 0 {
      if t[0].0 == t[0].1 {
        ReplaceAllSelf(s, t[0].0);
        SelfMappingsAreNoOps(s, t[1..]);
      } else {
        var s' := ReplaceAll(s, t[0].0, t[0].1);
        SelfMappingsAreNoOps(s', t[1..]);
        assert ([t[0]] + Effective(t[1..]))[1..] == Effective(t[1..]);
      }
    }
  }

  /** Order matters: with the table [a -> b, b -> c] the text "a" becomes "c",
      because the second entry rewrites what the first produced. */
  lemma Cascade()
    ensures WellFormed([("a", "b"), ("b", "c")])
    ensures ApplyTable("a", [("a", "b"), ("b", "c")]) == "c"
    ensures ApplyTable("a", [("b", "c"), ("a", "b")]) == "b"
  {
    var t: Table := [("a", "b"), ("b", "c")];
    assert ReplaceAll("a", "a", "b") == "b" by {
      assert "a"[..1] == "a";
      assert ReplaceAll("", "a", "b") == "";
    }
    assert ReplaceAll("b", "b", "c") == "c" by {
      assert "b"[..1] == "b";
      assert ReplaceAll("", "b", "c") == "";
    }
    assert t[1..] == [("b", "c")];
    assert ApplyTable("b", [("b", "c")]) == ApplyTable("c", []);
    var u: Table := [("b", "c"), ("a", "b")];
    assert ReplaceAll("a", "b", "c") == "a" by {
      assert "a"[..1] != "b";
      assert ReplaceAll("a"[1..], "b", "c") == "";
    }
    assert u[1..] == [("a", "b")];
    assert ApplyTable("a", [("a", "b")]) == ApplyTable("b", []);
  }

  /** The closed set of dialects offered by the engine. */
  datatype DialectId = Standard | Varhadi | Ahirani | Malwani | Nagpuri | Konkani

  /** A dialect: display name, ordered substitution table, rhythm factor
      (a resampling speed) and articulation factor (a spread around the mean). */
  datatype Profile = Profile(name: Text, substitutions: Table, rhythmPattern: real, articulation: real)

  const StandardTable: Table := []

  const VarhadiTable: Table := [
    ("गा", "मा"), ("ळ", "ल"), ("आहे", "आय"), ("नाही", "नाय"),
    ("काय", "काय"), ("मी", "म्ही"), ("तू", "तु"),
    ("आपण", "आपुण"), ("झाला", "झाला"),
    ("पाहिजे", "पाहिजे"), ("बोलतो", "बोलतो")]

  const AhiraniTable: Table := [
    ("आहे", "हाय"), ("नाही", "नाय"), ("मला", "म्हाला"),
    ("तुला", "तुला"), ("झाला", "झालं"),
    ("काय", "काय"), ("कसं", "कसं"),
    ("पाहिजे", "पायजे"), ("जातो", "जातो")]

  const MalwaniTable: Table := [
    ("व", "व्ह"), ("च", "च"), ("झ", "झ"), ("आहे", "आस"),
    ("नाही", "नाय"), ("काय", "काय"),
    ("कसं", "कसं"), ("तुला", "तुज्जा"),
    ("मला", "मज्जा"), ("पाहिजे", "पायजे")]

  const NagpuriTable: Table := [
    ("आहे", "हाय"), ("नाही", "नाय"), ("मला", "म्हाला"),
    ("तुला", "तुला"), ("आपण", "आपुण"),
    ("काय", "काय"), ("करतो", "करतो"),
    ("बोलतो", "बोलतो")]

  const KonkaniTable: Table := [
    ("आहे", "आसा"), ("नाही", "ना"), ("काय", "कितं"),
    ("कसं", "कसं"), ("तुला", "तुका"),
    ("मला", "माका"), ("पाहिजे", "जाय")]

  /** The dialect table of the engine; every profile has a well-formed
      table and positive factors. */
  function ProfileOf(d: DialectId): (p: Profile)
    ensures WellFormed(p.substitutions)
    ensures p.rhythmPattern > 0.0 && p.articulation > 0.0
    ensures d == Standard <==> |p.substitutions| == 0
  {
    match d
    case Standard => Profile("मानक मराठी", StandardTable, 1.0, 1.0)
    case Varhadi => Profile("वरहाडी", VarhadiTable, 1.1, 1.15)
    case Ahirani => Profile("अहिराणी", AhiraniTable, 1.12, 1.2)
    case Malwani => Profile("मालवणी", MalwaniTable, 0.92, 0.9)
    case Nagpuri => Profile("नागपुरी", NagpuriTable, 1.12, 1.2)
    case Konkani => Profile("कोकणी", KonkaniTable, 0.95, 0.93)
  }

  /** `MarathiDialect.apply_dialect`. */
  function ApplyDialect(s: Text, d: DialectId): Text
  {
    ApplyTable(s, ProfileOf(d).substitutions)
  }

  /** The standard dialect has an empty table and leaves every text unchanged. */
  lemma StandardIsIdentity(s: Text)
    ensures ApplyDialect(s, Standard) == s
  {
  }

  /** Konkani has a single self-mapping entry ('कसं'); dropping it changes
      nothing, so its table acts as the six real substitutions in order. */
  lemma KonkaniEffective(s: Text)
    ensures WellFormed(KonkaniTable[..3] + KonkaniTable[4..])
    ensures ApplyDialect(s, Konkani) == ApplyTable(s, KonkaniTable[..3] + KonkaniTable[4..])
  {
    var front, self, back := KonkaniTable[..3], KonkaniTable[3], KonkaniTable[4..];
    assert KonkaniTable == front + ([self] + back);
    assert self.0 == self.1;
    ApplyTableAppend(s, front, [self] + back);
    var mid := ApplyTable(s, front);
    ReplaceAllSelf(mid, self.0);
    assert ([self] + back)[1..] == back;
    ApplyTableAppend(s, front, back);
  }
}

=== FILE: emotion.dfy ===
/** The emotion and rhythm transform of `EmotionModifier`, over an exact-real
    idealisation of a mono sample buffer. */
module Emotion {

  type Audio = seq<real>

  /** `scipy.signal.resample(x, n)`: its numerical content is not modelled;
      the only promise kept is that the result has exactly `n` samples. It
      raises for `n == 0`, which the callers test first (`RhythmRaises`). */
  type Resampler = f: (Audio, nat) -> Audio | forall x: Audio, n: nat :: |f(x, n)| == n
    witness (x: Audio, n: nat) => seq(n, _ => 0.0)

  function Sum(a: Audio): real
    decreases |a|
  {
    if |a| == 0 then 0.0 else Sum(a[..|a| - 1]) + a[|a| - 1]
  }

  /** `np.mean`; an empty buffer is given mean 0 (the transforms below
      return an empty buffer for it whatever the mean). */
  function Mean(a: Audio): real
  {
    if |a| == 0 then 0.0 else Sum(a) / (|a| as real)
  }

  /** Every sample multiplied by `g` (numpy's `buffer * g`). */
  function Scale(a: Audio, g: real): Audio
  {
    seq(|a|, i requires 0 <= i < |a| => a[i] * g)
  }

  /** Every sample moved to `c + (x - c) * k`. */
  function Spread(a: Audio, c: real, k: real): Audio
  {
    seq(|a|, i requires 0 <= i < |a| => c + (a[i] - c) * k)
  }

  /** The sum of the deviations of the samples from `c`. */
  function Dev(a: Audio, c: real): real
    decreases |a|
  {
    if |a| == 0 then 0.0 else Dev(a[..|a| - 1], c) + (a[|a| - 1] - c)
  }

  /** Spreading around `c` by `k` multiplies the deviations from `c` by `k`. */
  lemma {:induction false} DevSpread(a: Audio, c: real, k: real)
    ensures Dev(Spread(a, c, k), c) == k * Dev(a, c)
    decreases |a|
  {
    if |a| > 0 {
      var a' := a[..|a| - 1];
      DevSpreadLast(a, c, k);
      DevSpread(a', c, k);
      Distribute(k, Dev(a, c), Dev(a', c), a[|a| - 1] - c);
    }
  }

  /** Spreading commutes with dropping the last sample. */
  lemma SpreadFront(a: Audio, c: real, k: real)
    requires |a| > 0
    ensures Spread(a, c, k)[..|a| - 1] == Spread(a[..|a| - 1], c, k)
  {
    var b := Spread(a, c, k);
    var front := Spread(a[..|a| - 1], c, k);
    forall i | 0 <= i < |a| - 1
      ensures b[..|a| - 1][i] == front[i]
    {
      assert a[..|a| - 1][i] == a[i];
    }
  }

  lemma DevSpreadLast(a: Audio, c: real, k: real)
    requires |a| > 0
    ensures Dev(Spread(a, c, k), c) == Dev(Spread(a[..|a| - 1], c, k), c) + (a[|a| - 1] - c) * k
  {
    SpreadFront(a, c, k);
  }

  lemma Distribute(k: real, t: real, d: real, e: real)
    requires t == d + e
    ensures k * t == k * d + e * k
  {
  }

  /** The deviations from `c` sum to the total minus `|a|` times `c`. */
  lemma {:induction false} DevIsSum(a: Audio, c: real)
    ensures Dev(a, c) == Sum(a) - (|a| as real) * c
    decreases |a|
  {
    if |a| > 0 {
      DevIsSum(a[..|a| - 1], c);
      CountStep(|a|, c);
    }
  }

  lemma CountStep(n: nat, c: real)
    requires n > 0
    ensures ((n - 1) as real) * c + c == (n as real) * c
  {
  }

  /** The deviations from the mean cancel out. */
  lemma DevAtMean(a: Audio)
    ensures Dev(a, Mean(a)) == 0.0
  {
    DevIsSum(a, Mean(a));
    if |a| > 0 {
      MeanTimesCount(Sum(a), |a| as real);
    }
  }

  /** Spreading around the mean keeps the total. */
  lemma SumOfSpreadAtMean(a: Audio, k: real)
    ensures Sum(Spread(a, Mean(a), k)) == Sum(a)
  {
    var c := Mean(a);
    var r := Spread(a, c, k);
    assert Dev(a, c) == 0.0 by {
      DevAtMean(a);
    }
    assert Dev(r, c) == 0.0 by {
      DevSpread(a, c, k);
    }
    assert Sum(r) == (|a| as real) * c by {
      DevIsSum(r, c);
    }
    assert Sum(a) == (|a| as real) * c by {
      DevIsSum(a, c);
    }
  }

  /** Spreading around the mean keeps the mean. */
  lemma SpreadKeepsMean(a: Audio, k: real)
    ensures Mean(Spread(a, Mean(a), k)) == Mean(a)
  {
    SumOfSpreadAtMean(a, k);
  }

  lemma MeanTimesCount(s: real, n: real)
    requires n > 0.0
    ensures n * (s / n) == s
  {
  }

  /** `change_intensity`: spread the samples around the buffer's own mean.
      Length and mean are preserved ("without affecting base tone"), and a
      factor of 1 is the identity. */
  function ChangeIntensity(a: Audio, k: real): (r: Audio)
    ensures |r| == |a|
    ensures Mean(r) == Mean(a)
    ensures forall i :: 0 <= i < |a| ==> r[i] - Mean(a) == (a[i] - Mean(a)) * k
    ensures k == 1.0 ==> r == a
  {
    SpreadKeepsMean(a, k);
    Spread(a, Mean(a), k)
  }

  /** Two intensity steps in a row act as one step with the product factor. */
  lemma IntensityComposes(a: Audio, k1: real, k2: real)
    ensures ChangeIntensity(ChangeIntensity(a, k1), k2) == ChangeIntensity(a, k1 * k2)
  {
    var m := Mean(a);
    var b := ChangeIntensity(a, k1);
    assert Mean(b) == m;
    assert ChangeIntensity(b, k2) == Spread(b, m, k2);
    assert ChangeIntensity(a, k1 * k2) == Spread(a, m, k1 * k2);
    SpreadTwice(a, m, k1, k2);
  }

  /** Spreading twice around the same centre is one spread by the product. */
  lemma SpreadTwice(a: Audio, m: real, k1: real, k2: real)
    ensures Spread(Spread(a, m, k1), m, k2) == Spread(a, m, k1 * k2)
  {
    var c := Spread(Spread(a, m, k1), m, k2);
    var d := Spread(a, m, k1 * k2);
    forall i | 0 <= i < |a|
      ensures c[i] == d[i]
    {
      Associate(a[i] - m, k1, k2);
    }
  }

  lemma Associate(x: real, k1: real, k2: real)
    ensures (x * k1) * k2 == x * (k1 * k2)
  {
  }

  /** The intensity step of `modify_audio` (skipped at 1.0) after a first
      spread by `k` is one spread by the product. */
  lemma IntensityStepMerges(a: Audio, k: real, ki: real)
    ensures (if ki != 1.0 then ChangeIntensity(ChangeIntensity(a, k), ki) else ChangeIntensity(a, k))
      == ChangeIntensity(a, k * ki)
  {
    if ki != 1.0 {
      IntensityComposes(a, k, ki);
    } else {
      assert k * ki == k;
    }
  }

  /** An intensity step just before `modify_audio` merges with the
      profile's own intensity step: the pair acts as one spread by the
      product of the factors, followed by the remaining steps. */
  lemma IntensityThenParams(a: Audio, k: real, p: EmotionParams, resample: Resampler)
    requires p.speedFactor != 0.0
    ensures ApplyParams(ChangeIntensity(a, k), p, resample) ==
      Scale(Retime(ChangeIntensity(a, k * p.intensity), p.speedFactor, resample), p.volume)
  {
    IntensityStepMerges(a, k, p.intensity);
  }

  /** Python's `int(n / f)` for a positive divisor: the quotient truncated
      toward zero, which for a non-negative quotient is its floor. */
  function TruncDiv(n: nat, f: real): (q: nat)
    requires f > 0.0
    ensures q as real <= (n as real) / f < q as real + 1.0
  {
    var x := (n as real) / f;
    assert x >= 0.0;
    x.Floor
  }

  lemma TruncDivUnique(n: nat, f: real, q: nat)
    requires f > 0.0
    requires q as real <= (n as real) / f < q as real + 1.0
    ensures TruncDiv(n, f) == q
  {
  }

  /** The sample count `change_rhythm` asks the resampler for: a factor
      that is not positive is first replaced by 1.0, then `int(len / factor)`. */
  function RhythmTarget(n: nat, f: real): (q: nat)
    ensures f > 0.0 ==> q as real <= (n as real) / f < q as real + 1.0
    ensures f <= 0.0 ==> q == n
  {
    var g := if f <= 0.0 then 1.0 else f;
    var q := TruncDiv(n, g);
    assert g == 1.0 ==> q == n by {
      if g == 1.0 {
        TruncDivUnique(n, 1.0, n);
      }
    }
    q
  }

  /** `scipy.signal.resample` raises for an empty input and for a 0-sample
      target; an empty input always has a 0-sample target, so `change_rhythm`
      raises exactly when its target is 0. */
  predicate RhythmRaises(n: nat, f: real)
  {
    RhythmTarget(n, f) == 0
  }

  /** `change_rhythm` raises exactly when the buffer is shorter than the
      (clamped) factor: for a positive factor, fewer samples than the factor;
      otherwise, an empty buffer. */
  lemma RhythmRaisesIff(n: nat, f: real)
    ensures f > 0.0 ==> (RhythmRaises(n, f) <==> (n as real) < f)
    ensures f <= 0.0 ==> (RhythmRaises(n, f) <==> n == 0)
  {
    if f > 0.0 {
      QuotientBelowOne(n as real, f);
    }
  }

  lemma QuotientBelowOne(x: real, f: real)
    requires f > 0.0
    ensures x / f < 1.0 <==> x < f
  {
    var q := x / f;
    assert q * f == x;
    assert q < 1.0 <==> q * f < 1.0 * f;
  }

  /** `change_rhythm`, when it does not raise: the buffer resampled to the
      target count. A factor of 1 (or a clamped one) keeps the length. */
  function ChangeRhythm(a: Audio, f: real, resample: Resampler): (r: Audio)
    ensures |r| == RhythmTarget(|a|, f)
    ensures f > 0.0 ==> (|r| as real) <= (|a| as real) / f < (|r| as real) + 1.0
    ensures f <= 0.0 ==> r == resample(a, |a|)
    ensures f <= 0.0 || f == 1.0 ==> |r| == |a|
  {
    var n := RhythmTarget(|a|, f);
    assert f == 1.0 ==> n == |a| by {
      if f == 1.0 {
        TruncDivUnique(|a|, 1.0, |a|);
      }
    }
    resample(a, n)
  }

  function Abs(x: real): real
  {
    if x < 0.0 then -x else x
  }

  /** The speed resolution of `modify_audio`: a positive factor is used as
      is, a negative one by the reciprocal of its magnitude (0 would be a
      division by zero, so it is excluded). The result is always positive. */
  function ResolveSpeed(sf: real): (v: real)
    requires sf != 0.0
    ensures v > 0.0
    ensures sf > 0.0 ==> v == sf
    ensures sf < 0.0 ==> v * -sf == 1.0
  {
    if sf > 0.0 then Abs(sf) else 1.0 / Abs(sf)
  }

  /** The closed set of emotion keys; `Punctuation` is also the key that
      selects the punctuation-driven generation mode. */
  datatype Emotion = Neutral | Happy | Angry | Sad | Punctuation

  /** One row of the emotion table. `pauseLength` is carried but never used. */
  datatype EmotionParams = EmotionParams(intensity: real, speedFactor: real, volume: real, pauseLength: real)

  function ParamsOf(e: Emotion): (p: EmotionParams)
    ensures p.speedFactor != 0.0
    ensures e == Neutral <==> p.intensity == 1.0 && p.speedFactor == 1.0
  {
    match e
    case Neutral => EmotionParams(1.0, 1.0, 0.9, 1.0)
    case Happy => EmotionParams(1.15, 1.1, 1.1, 0.8)
    case Angry => EmotionParams(1.8, -1.13, 1.8, 0.25)
    case Sad => EmotionParams(0.8, 0.89, 0.7, 1.4)
    case Punctuation => EmotionParams(1.0, 1.2, 1.7, 1.0)
  }

  /** The rhythm step of `modify_audio`, skipped at speed 1.0. */
  function Retime(a: Audio, sf: real, resample: Resampler): Audio
    requires sf != 0.0
  {
    if sf != 1.0 then ChangeRhythm(a, ResolveSpeed(sf), resample) else a
  }

  /** The three steps of `modify_audio` in their fixed order: intensity
      (skipped at 1.0), rhythm at the resolved speed (skipped at 1.0),
      then volume. */
  function ApplyParams(a: Audio, p: EmotionParams, resample: Resampler): (r: Audio)
    requires p.speedFactor != 0.0
    ensures p.speedFactor == 1.0 ==> |r| == |a|
    ensures p.speedFactor != 1.0 ==>
      (|r| as real) <= (|a| as real) / ResolveSpeed(p.speedFactor) < (|r| as real) + 1.0
    ensures p.intensity == 1.0 && p.speedFactor == 1.0 ==>
      forall i :: 0 <= i < |a| ==> r[i] == a[i] * p.volume
  {
    var a1 := if p.intensity != 1.0 then ChangeIntensity(a, p.intensity) else a;
    Scale(Retime(a1, p.speedFactor, resample), p.volume)
  }

  /** `EmotionModifier.modify_audio` for a key of the emotion table, when
      it does not raise (see `ModifyRaises`). */
  function ModifyAudio(a: Audio, e: Emotion, resample: Resampler): Audio
  {
    ApplyParams(a, ParamsOf(e), resample)
  }

  /** `modify_audio` raises exactly when its rhythm step runs (speed factor
      other than 1.0) and asks the resampler for 0 samples. */
  predicate ModifyRaises(n: nat, e: Emotion)
  {
    ParamsOf(e).speedFactor != 1.0 && RhythmRaises(n, ResolveSpeed(ParamsOf(e).speedFactor))
  }

  /** Which buffers make `modify_audio` raise: for happy (1.1) and the
      punctuation profile (1.2) a buffer of at most one sample, for angry
      (resolved to 1/1.13) and sad (0.89) only the empty buffer, and for
      neutral (no rhythm step) none. */
  lemma ModifyRaisesIff(n: nat, e: Emotion)
    ensures ModifyRaises(n, e) <==>
      ((e == Happy || e == Punctuation) && n <= 1) || ((e == Angry || e == Sad) && n == 0)
  {
    var sf := ParamsOf(e).speedFactor;
    if sf != 1.0 {
      var v := ResolveSpeed(sf);
      RhythmRaisesIff(n, v);
      if e == Angry {
        assert v * 1.13 == 1.0;
        assert v < 1.0;
      }
    }
  }

  /** The neutral profile skips both intensity and rhythm: the output is the
      input with every sample scaled by exactly 0.9. */
  lemma NeutralIsPureVolume(a: Audio, resample: Resampler)
    ensures ModifyAudio(a, Neutral, resample) == Scale(a, 0.9)
  {
  }

  /** Angry's negative factor -1.13 resolves to the speed 1/1.13, so the
      output has `int(n * 1.13)` samples: never fewer than the input, and
      strictly more once the input has at least 8 samples. */
  lemma AngryLengthens(a: Audio, resample: Resampler)
    ensures var r := ModifyAudio(a, Angry, resample);
      (|r| as real) <= (|a| as real) * 1.13 < (|r| as real) + 1.0
    ensures |ModifyAudio(a, Angry, resample)| >= |a|
    ensures |a| >= 8 ==> |ModifyAudio(a, Angry, resample)| > |a|
  {
    var v := ResolveSpeed(-1.13);
    assert v * 1.13 == 1.0;
    assert (|a| as real) / v == (|a| as real) * 1.13;
  }

  /** Happy (1.1) and the punctuation profile (1.2) speed up: the output is
      never longer than the input. Sad (0.89) slows down: never shorter. */
  lemma SpeedDirection(a: Audio, resample: Resampler)
    ensures |ModifyAudio(a, Happy, resample)| <= |a|
    ensures |ModifyAudio(a, Punctuation, resample)| <= |a|
    ensures |ModifyAudio(a, Sad, resample)| >= |a|
  {
  }
}

=== FILE: pipeline.dfy ===
/** The two generation modes of `MarathiTTS` and the session fields they
    set, over abstract collaborators for synthesis, codecs and resampling. */
module Pipeline {
  import opened Seqs
  import opened Dialect
  import opened Emotion
  import opened Segmenter

  /** Samples and sample rate as returned by `sf.read`. */
  datatype Decoded = Decoded(samples: Audio, rate: nat)

  /** The external collaborators, as functions the model does not look into.
      `None` stands for the exception the collaborator would raise. */
  datatype Backend = Backend(
    // gTTS synthesis of the text in Marathi, saved as mp3 and read with `sf.read`
    synthesize: Text -> Option<Decoded>,
    // gTTS synthesis of one sentence, loaded with `AudioSegment.from_mp3`
    synthesizeSegment: Text -> Option<Audio>,
    // pydub's `segment + db` (a negative db lowers the level)
    gain: (Audio, real) -> Audio,
    // `pydub.effects.speedup(segment, playback_speed, chunk_size, crossfade)`,
    // which raises for a segment too short to cut into two chunks
    speedup: (Audio, real, nat, nat) -> Option<Audio>,
    // export of the stitched segment as mp3, read back with `sf.read`
    transcode: Audio -> Option<Decoded>,
    // `scipy.signal.resample`, for the targets at which it does not raise
    resample: Resampler)

  const QuestionVolumeIncreaseDb: real := 10.0
  const ExclamationSpeedFactor: real := 1.3
  const SpeedupChunkSize: nat := 150
  const SpeedupCrossfade: nat := 25
  const OtherVolumeDecreaseDb: real := 5.0

  /** Why a generation call returned `None`. A resampling failure happens
      after the session was partly updated: `rate` is the sample rate already
      stored, `kept` the buffer already stored (punctuated mode only). */
  datatype Failure =
    | SynthesisFailed
    | SpeedupFailed
    | NoAudioGenerated
    | CodecFailed
    | ResampleFailed(rate: nat, kept: Option<Audio>)

  datatype Result<T> = Ok(value: T) | Err(error: Failure)

  /** A successful generation: `played` is the buffer written to the
      temporary wav (and to `save_path` when one is given), `stored` is what
      the engine keeps as `current_audio_data`, `rate` its sample rate. */
  datatype Generated = Generated(played: Audio, stored: Audio, rate: nat)

  /** A dialect profile whose substitution patterns are all non-empty, as
      every profile of the engine's table is. */
  type WellFormedProfile = p: Profile | WellFormed(p.substitutions)
    witness Profile([], [], 1.0, 1.0)

  /** The dialect's rhythm change followed by its articulation spread
      around the mean, as both modes apply them. */
  function DialectShape(a: Audio, p: WellFormedProfile, be: Backend): (r: Audio)
    ensures |r| == RhythmTarget(|a|, p.rhythmPattern)
    ensures p.rhythmPattern > 0.0 ==> (|r| as real) <= (|a| as real) / p.rhythmPattern < (|r| as real) + 1.0
    ensures Mean(r) == Mean(be.resample(a, |r|))
  {
    ChangeIntensity(ChangeRhythm(a, p.rhythmPattern, be.resample), p.articulation)
  }

  /** `generate_basic_speech`: dialect text, synthesis, dialect rhythm, then
      articulation, then the emotion transform. Either resampling step
      raises when it is asked for 0 samples; by then the sample rate of the
      synthesized audio has been stored. */
  function GenerateBasic(text: Text, p: WellFormedProfile, e: Emotion, be: Backend): (r: Result<Generated>)
    ensures r == Err(SynthesisFailed) <==> be.synthesize(ApplyTable(text, p.substitutions)).None?
    ensures be.synthesize(ApplyTable(text, p.substitutions)).Some? ==>
      var base := be.synthesize(ApplyTable(text, p.substitutions)).value;
      var n := RhythmTarget(|base.samples|, p.rhythmPattern);
      (r.Err? <==> n == 0 || ModifyRaises(n, e)) &&
      (r.Err? ==> r.error == ResampleFailed(base.rate, None)) &&
      (r.Ok? ==> r.value.played == BasicRender(base.samples, p, e, be) && r.value.rate == base.rate)
    ensures r.Ok? ==> r.value.played == r.value.stored
  {
    match be.synthesize(ApplyTable(text, p.substitutions))
    case None => Err(SynthesisFailed)
    case Some(base) =>
      if RhythmRaises(|base.samples|, p.rhythmPattern) then Err(ResampleFailed(base.rate, None))
      else
        var shaped := DialectShape(base.samples, p, be);
        if ModifyRaises(|shaped|, e) then Err(ResampleFailed(base.rate, None))
        else
          var out := ModifyAudio(shaped, e, be.resample);
          Ok(Generated(out, out, base.rate))
  }

  /** The processing of `generate_basic_speech` after synthesis. */
  function BasicRender(base: Audio, p: WellFormedProfile, e: Emotion, be: Backend): Audio
  {
    ModifyAudio(DialectShape(base, p, be), e, be.resample)
  }

  /** The per-segment treatment: +10 dB for questions, a 1.3 speedup with
      150 ms chunks and 25 ms crossfade for exclamations, -5 dB otherwise.
      Only the speedup can raise. */
  function Treat(t: Treatment, a: Audio, be: Backend): Option<Audio>
  {
    match t
    case Louder => Some(be.gain(a, QuestionVolumeIncreaseDb))
    case Faster => be.speedup(a, ExclamationSpeedFactor, SpeedupChunkSize, SpeedupCrossfade)
    case Softer => Some(be.gain(a, -OtherVolumeDecreaseDb))
  }

  /** The `full_audio` accumulator: seeded by the first segment, then extended. */
  function Append(acc: Option<Audio>, a: Audio): Audio
  {
    match acc
    case None => a
    case Some(x) => x + a
  }

  /** The sentence loop: blank items are skipped; every other item is put
      through the dialect, synthesized, treated by its class and appended.
      A synthesis or speedup failure aborts the whole call. */
  function Stitch(acc: Option<Audio>, items: seq<Text>, p: WellFormedProfile, be: Backend): (r: Result<Option<Audio>>)
    ensures r.Err? ==> r.error == SynthesisFailed || r.error == SpeedupFailed
    ensures r.Ok? && acc.Some? ==> r.value.Some?
    decreases |items|
  {
    if |items| == 0 then Ok(acc)
    else if Strip(items[0]) == [] then Stitch(acc, items[1..], p, be)
    else match Voice(items[0], p, be)
      case None => Err(SynthesisFailed)
      case Some(a) =>
        match Treat(Classify(items[0]), a, be)
        case None => Err(SpeedupFailed)
        case Some(t) => Stitch(Some(Append(acc, t)), items[1..], p, be)
  }

  /** The sentence list: the `findall` result, or the whole text when that
      result is empty. */
  function SentenceItems(text: Text): seq<Text>
  {
    var found := FindAll(text);
    if |found| == 0 then [text] else found
  }

  /** The end of the punctuated mode, after the stitched audio was re-read
      as `dec` and stored: the dialect rhythm (which raises at a 0-sample
      target) and articulation. */
  function Finish(dec: Decoded, p: WellFormedProfile, be: Backend): (r: Result<Generated>)
    ensures r.Ok? ==> r.value.stored == dec.samples && r.value.rate == dec.rate
    ensures r.Ok? ==> r.value.played == DialectShape(r.value.stored, p, be)
    ensures r.Err? <==> RhythmTarget(|dec.samples|, p.rhythmPattern) == 0
    ensures r.Err? ==> r.error == ResampleFailed(dec.rate, Some(dec.samples))
  {
    if RhythmRaises(|dec.samples|, p.rhythmPattern) then Err(ResampleFailed(dec.rate, Some(dec.samples)))
    else Ok(Generated(DialectShape(dec.samples, p, be), dec.samples, dec.rate))
  }

  /** `generate_punctuated_speech`. */
  function GeneratePunctuated(text: Text, p: WellFormedProfile, be: Backend): (r: Result<Generated>)
    ensures r.Ok? ==> r.value.played == DialectShape(r.value.stored, p, be)
    ensures r.Err? && r.error.ResampleFailed? ==>
      r.error.kept.Some? && RhythmRaises(|r.error.kept.value|, p.rhythmPattern)
  {
    match Stitch(None, SentenceItems(text), p, be)
    case Err(f) => Err(f)
    case Ok(acc) =>
      if acc.None? || |acc.value| == 0 then Err(NoAudioGenerated)
      else
        var dec := be.transcode(acc.value);
        if dec.None? then Err(CodecFailed) else Finish(dec.value, p, be)
  }

  /** `generate_speech`: the 'punctuation' key selects the punctuated mode,
      every other key the basic mode. */
  function GenerateSpeech(text: Text, d: DialectId, e: Emotion, be: Backend): (r: Result<Generated>)
    ensures e != Punctuation ==> (r == Err(SynthesisFailed) <==> be.synthesize(ApplyDialect(text, d)).None?)
    ensures e != Punctuation && be.synthesize(ApplyDialect(text, d)).Some? ==>
      var base := be.synthesize(ApplyDialect(text, d)).value;
      var n := RhythmTarget(|base.samples|, ProfileOf(d).rhythmPattern);
      (r.Err? <==> n == 0 || ModifyRaises(n, e)) &&
      (r.Ok? ==> r.value.played == BasicRender(base.samples, ProfileOf(d), e, be) && r.value.rate == base.rate)
    ensures e != Punctuation && r.Ok? ==> r.value.played == r.value.stored
    ensures e == Punctuation && r.Ok? ==> r.value.played == DialectShape(r.value.stored, ProfileOf(d), be)
    ensures e == Punctuation && r.Ok? ==>
      var ks := Sentences(text);
      Failing(ks, ProfileOf(d), be) == |ks| && ks != [] &&
      be.transcode(Flatten(Rendered(ks, ProfileOf(d), be))) == Some(Decoded(r.value.stored, r.value.rate))
    ensures e == Punctuation ==>
      var ks := Sentences(text);
      Failing(ks, ProfileOf(d), be) < |ks| ==> r == Err(FailureOf(ks[Failing(ks, ProfileOf(d), be)], ProfileOf(d), be))
    ensures e == Punctuation && Sentences(text) == [] ==> r == Err(NoAudioGenerated)
  {
    PunctuatedSpec(text, ProfileOf(d), be);
    if e == Punctuation then GeneratePunctuated(text, ProfileOf(d), be)
    else GenerateBasic(text, ProfileOf(d), e, be)
  }

  /** One sentence through the dialect and the segment synthesizer. */
  function Voice(seg: Text, p: WellFormedProfile, be: Backend): Option<Audio>
  {
    be.synthesizeSegment(ApplyTable(seg, p.substitutions))
  }

  /** The sentence synthesizes and its treatment does not raise. */
  predicate Renders(seg: Text, p: WellFormedProfile, be: Backend)
  {
    Voice(seg, p, be).Some? && Treat(Classify(seg), Voice(seg, p, be).value, be).Some?
  }

  /** The failure the loop reports at a sentence that does not render. */
  function FailureOf(seg: Text, p: WellFormedProfile, be: Backend): Failure
  {
    if Voice(seg, p, be).None? then SynthesisFailed else SpeedupFailed
  }

  /** Every sentence before index `i` renders. */
  predicate RendersBelow(segs: seq<Text>, i: nat, p: WellFormedProfile, be: Backend)
    requires i <= |segs|
  {
    forall j :: 0 <= j < i ==> Renders(segs[j], p, be)
  }

  /** The index of the first sentence that does not render, or the number
      of sentences when all of them do. */
  function Failing(segs: seq<Text>, p: WellFormedProfile, be: Backend): (i: nat)
    ensures i <= |segs|
    ensures RendersBelow(segs, i, p, be)
    ensures i < |segs| ==> !Renders(segs[i], p, be)
    decreases |segs|
  {
    if |segs| == 0 || !Renders(segs[0], p, be) then 0
    else
      var rest := segs[1..];
      var k := Failing(rest, p, be);
      RendersBelowCons(segs, k, p, be);
      1 + k
  }

  /** A sentence that renders in front of `k` rendering ones gives `k + 1`
      rendering ones. */
  lemma RendersBelowCons(segs: seq<Text>, k: nat, p: WellFormedProfile, be: Backend)
    requires |segs| > 0 && k < |segs| && Renders(segs[0], p, be)
    requires RendersBelow(segs[1..], k, p, be)
    ensures RendersBelow(segs, k + 1, p, be)
  {
    forall j | 0 <= j < k + 1
      ensures Renders(segs[j], p, be)
    {
      if j > 0 {
        assert segs[j] == segs[1..][j - 1];
      }
    }
  }

  /** The treated audio of one sentence that renders. */
  function Piece(seg: Text, p: WellFormedProfile, be: Backend): Audio
    requires Renders(seg, p, be)
  {
    Treat(Classify(seg), Voice(seg, p, be).value, be).value
  }

  /** The treated audio of every sentence, in order. */
  function Rendered(segs: seq<Text>, p: WellFormedProfile, be: Backend): (r: seq<Audio>)
    requires Failing(segs, p, be) == |segs|
    ensures |r| == |segs|
    decreases |segs|
  {
    if |segs| == 0 then [] else [Piece(segs[0], p, be)] + Rendered(segs[1..], p, be)
  }

  /** Extending the accumulator twice is extending it once by the concatenation. */
  lemma AppendAssoc(acc: Option<Audio>, a: Audio, b: Audio)
    ensures Append(Some(Append(acc, a)), b) == Append(acc, a + b)
  {
    if acc.Some? {
      assert (acc.value + a) + b == acc.value + (a + b);
    }
  }

  /** The loop keeps exactly the non-blank items. When every one of them
      renders, their treated audio is appended to the accumulator in input
      order with nothing in between; otherwise the call fails with the
      failure of the first one that does not. */
  lemma {:induction false} StitchIsConcatenation(acc: Option<Audio>, items: seq<Text>, p: WellFormedProfile, be: Backend)
    ensures var ks := Kept(items);
      Failing(ks, p, be) == |ks| ==>
        Stitch(acc, items, p, be) ==
          Ok(if |ks| == 0 then acc else Some(Append(acc, Flatten(Rendered(ks, p, be)))))
    ensures var ks := Kept(items);
      Failing(ks, p, be) < |ks| ==>
        Stitch(acc, items, p, be) == Err(FailureOf(ks[Failing(ks, p, be)], p, be))
    decreases |items|
  {
    if |items| > 0 {
      var x := items[0];
      var rest := items[1..];
      if Strip(x) == [] {
        StitchIsConcatenation(acc, rest, p, be);
      } else if !Renders(x, p, be) {
        StitchStops(acc, items, p, be);
      } else {
        var piece := Piece(x, p, be);
        var kr := Kept(rest);
        StitchIsConcatenation(Some(Append(acc, piece)), rest, p, be);
        StitchGoesOn(acc, items, p, be);
        if Failing(kr, p, be) == |kr| {
          ConcatenationStep(acc, piece, x, kr, p, be);
        } else {
          FailureShifts(Kept(items), p, be);
        }
      }
    }
  }

  /** A kept first item that does not render ends the loop with its failure. */
  lemma StitchStops(acc: Option<Audio>, items: seq<Text>, p: WellFormedProfile, be: Backend)
    requires |items| > 0 && Strip(items[0]) != [] && !Renders(items[0], p, be)
    ensures Failing(Kept(items), p, be) == 0 < |Kept(items)|
    ensures Kept(items)[0] == items[0]
    ensures Stitch(acc, items, p, be) == Err(FailureOf(items[0], p, be))
  {
    assert Kept(items) == [items[0]] + Kept(items[1..]);
  }

  /** A kept first item that renders is appended and the loop goes on. */
  lemma StitchGoesOn(acc: Option<Audio>, items: seq<Text>, p: WellFormedProfile, be: Backend)
    requires |items| > 0 && Strip(items[0]) != [] && Renders(items[0], p, be)
    ensures Kept(items) == [items[0]] + Kept(items[1..])
    ensures Stitch(acc, items, p, be) == Stitch(Some(Append(acc, Piece(items[0], p, be))), items[1..], p, be)
  {
  }

  /** Behind a sentence that renders, the first failing sentence is the
      first failing one of the rest. */
  lemma FailureShifts(ks: seq<Text>, p: WellFormedProfile, be: Backend)
    requires |ks| > 0 && Renders(ks[0], p, be) && Failing(ks[1..], p, be) < |ks| - 1
    ensures Failing(ks, p, be) == 1 + Failing(ks[1..], p, be) < |ks|
    ensures ks[Failing(ks, p, be)] == ks[1..][Failing(ks[1..], p, be)]
  {
  }

  /** One kept sentence in front of the rendered rest: its piece comes
      first in the accumulated audio. */
  lemma ConcatenationStep(acc: Option<Audio>, piece: Audio, x: Text, kr: seq<Text>, p: WellFormedProfile, be: Backend)
    requires Renders(x, p, be) && piece == Piece(x, p, be)
    requires Failing(kr, p, be) == |kr|
    ensures Failing([x] + kr, p, be) == |[x] + kr|
    ensures Some(Append(acc, Flatten(Rendered([x] + kr, p, be)))) ==
      (if |kr| == 0 then Some(Append(acc, piece)) else Some(Append(Some(Append(acc, piece)), Flatten(Rendered(kr, p, be)))))
  {
    var ks := [x] + kr;
    assert ks[0] == x && ks[1..] == kr;
    var rr := Rendered(kr, p, be);
    assert Rendered(ks, p, be) == [piece] + rr;
    FlattenCons(piece, rr);
    if |kr| == 0 {
      assert piece + Flatten(rr) == piece;
    } else {
      AppendAssoc(acc, piece, Flatten(rr));
    }
  }

  /** The punctuated mode end to end: it fails with the failure of the first
      kept sentence that does not render; it reports no audio when there is
      no kept sentence or the stitched audio is empty; otherwise it stores
      the re-read stitched audio and plays its dialect-shaped version, unless
      the dialect resampling raises. No emotion transform is applied. */
  lemma PunctuatedSpec(text: Text, p: WellFormedProfile, be: Backend)
    ensures var ks := Sentences(text);
      Failing(ks, p, be) < |ks| ==> GeneratePunctuated(text, p, be) == Err(FailureOf(ks[Failing(ks, p, be)], p, be))
    ensures Sentences(text) == [] ==> GeneratePunctuated(text, p, be) == Err(NoAudioGenerated)
    ensures var ks := Sentences(text);
      Failing(ks, p, be) == |ks| && ks != [] ==>
      var buf := Flatten(Rendered(ks, p, be));
      GeneratePunctuated(text, p, be) ==
        if |buf| == 0 then Err(NoAudioGenerated)
        else match be.transcode(buf)
          case None => Err(CodecFailed)
          case Some(dec) =>
            if RhythmTarget(|dec.samples|, p.rhythmPattern) == 0 then Err(ResampleFailed(dec.rate, Some(dec.samples)))
            else Ok(Generated(DialectShape(dec.samples, p, be), dec.samples, dec.rate))
  {
    assert SentenceItems(text) == FindAll(text);
    StitchIsConcatenation(None, FindAll(text), p, be);
  }

  /** Text whose marks all sit in its leading run (in particular text with
      no mark at all) produces no audio, whatever the collaborators do. */
  lemma UnpunctuatedTextFails(text: Text, p: WellFormedProfile, be: Backend)
    requires EndOfLastMark(text) == RunLength(text, true)
    ensures GeneratePunctuated(text, p, be) == Err(NoAudioGenerated)
  {
    NoSentenceIff(text);
    PunctuatedSpec(text, p, be);
  }

  /** Standard dialect with the neutral emotion: the output is the
      same-length resampling of the synthesized buffer, scaled by 0.9; an
      empty synthesized buffer makes the resampler raise. */
  lemma StandardNeutralBasic(text: Text, be: Backend)
    requires be.synthesize(text).Some?
    ensures var base := be.synthesize(text).value;
      |base.samples| == 0 ==> GenerateSpeech(text, Standard, Neutral, be) == Err(ResampleFailed(base.rate, None))
    ensures var base := be.synthesize(text).value;
      var out := Scale(be.resample(base.samples, |base.samples|), 0.9);
      |base.samples| > 0 ==> GenerateSpeech(text, Standard, Neutral, be) == Ok(Generated(out, out, base.rate))
  {
    StandardIsIdentity(text);
    var base := be.synthesize(text).value.samples;
    var shaped := DialectShape(base, ProfileOf(Standard), be);
    assert shaped == be.resample(base, |base|);
    NeutralIsPureVolume(shaped, be.resample);
  }

  /** A one-sample synthesis under Varhadi (rhythm 1.1) asks the resampler
      for `int(1 / 1.1) == 0` samples, so basic mode fails for every emotion. */
  lemma VarhadiOneSampleFails(text: Text, e: Emotion, be: Backend)
    requires e != Punctuation
    requires be.synthesize(ApplyDialect(text, Varhadi)).Some?
    requires |be.synthesize(ApplyDialect(text, Varhadi)).value.samples| == 1
    ensures GenerateSpeech(text, Varhadi, e, be).Err?
    ensures GenerateSpeech(text, Varhadi, e, be) != Err(SynthesisFailed)
  {
    RhythmRaisesIff(1, 1.1);
  }

  /** In basic mode the dialect's articulation and the emotion's intensity
      are adjacent steps, so together they spread the rhythm-changed buffer
      by the product of the two factors before the emotion's speed and
      volume are applied. */
  lemma BasicIntensitiesCompose(base: Audio, p: WellFormedProfile, e: Emotion, be: Backend)
    ensures var spread := ChangeIntensity(ChangeRhythm(base, p.rhythmPattern, be.resample),
                                          p.articulation * ParamsOf(e).intensity);
      BasicRender(base, p, e, be) == Scale(Retime(spread, ParamsOf(e).speedFactor, be.resample), ParamsOf(e).volume)
  {
    IntensityThenParams(ChangeRhythm(base, p.rhythmPattern, be.resample), p.articulation, ParamsOf(e), be.resample);
  }

  /** The session fields `current_audio_data` and `current_sample_rate`. */
  datatype Session = Session(audio: Option<Audio>, rate: Option<nat>)

  /** What a generation call leaves in the session: a success stores its
      buffer and rate; a resampling failure has already stored the rate (and
      in punctuated mode the buffer); every other failure stores nothing. */
  function Commit(s: Session, r: Result<Generated>): Session
  {
    match r
    case Ok(g) => Session(Some(g.stored), Some(g.rate))
    case Err(ResampleFailed(rate, kept)) => Session(if kept.Some? then kept else s.audio, Some(rate))
    case Err(_) => s
  }

  /** `save`: writes the kept buffer at the kept rate, or reports `False`
      (here `None`) when there is no buffer or the rate is missing or 0. */
  function Save(s: Session): Option<Decoded>
  {
    if s.audio.Some? && s.rate.Some? && s.rate.value != 0 then Some(Decoded(s.audio.value, s.rate.value))
    else None
  }

  lemma DivisionShrinks(n: real, f: real)
    requires n > 0.0 && f > 1.0
    ensures n / f < n
  {
    var q := n / f;
    assert q * f == n;
    assert q > 0.0;
    assert q * f > q * 1.0;
  }

  /** After a punctuated generation, `save` writes the buffer from before the
      dialect rhythm and articulation, not the one in the temporary file:
      for a dialect whose rhythm factor exceeds 1 it is strictly longer
      whenever it is not empty. */
  lemma SaveAfterPunctuated(s: Session, text: Text, p: WellFormedProfile, be: Backend)
    requires GeneratePunctuated(text, p, be).Ok?
    ensures var g := GeneratePunctuated(text, p, be).value;
      g.rate != 0 ==> Save(Commit(s, GeneratePunctuated(text, p, be))) == Some(Decoded(g.stored, g.rate))
    ensures var g := GeneratePunctuated(text, p, be).value;
      p.rhythmPattern > 1.0 && |g.stored| > 0 ==> |g.played| < |g.stored|
  {
    var g := GeneratePunctuated(text, p, be).value;
    var n := |g.stored| as real;
    if p.rhythmPattern > 1.0 && n > 0.0 {
      assert (|g.played| as real) <= n / p.rhythmPattern;
      DivisionShrinks(n, p.rhythmPattern);
    }
  }

  /** After a basic generation, `save` writes the same buffer as the temporary file. */
  lemma SaveAfterBasic(s: Session, text: Text, p: WellFormedProfile, e: Emotion, be: Backend)
    requires GenerateBasic(text, p, e, be).Ok?
    requires GenerateBasic(text, p, e, be).value.rate != 0
    ensures Save(Commit(s, GenerateBasic(text, p, e, be))) ==
      Some(Decoded(GenerateBasic(text, p, e, be).value.played, GenerateBasic(text, p, e, be).value.rate))
  {
  }

  /** A generation call that fails before any resampling step leaves the
      session, and so what `save` writes, unchanged: in basic mode a failed
      synthesis; in punctuated mode a kept sentence that does not render, no
      kept sentence, an empty stitched buffer or a failed mp3 round trip. */
  lemma FailureKeepsSession(s: Session, text: Text, d: DialectId, e: Emotion, be: Backend)
    ensures e != Punctuation && be.synthesize(ApplyDialect(text, d)).None? ==>
      Commit(s, GenerateSpeech(text, d, e, be)) == s
    ensures e == Punctuation ==>
      var p := ProfileOf(d);
      var ks := Sentences(text);
      (Failing(ks, p, be) < |ks| || ks == [] ||
       |Flatten(Rendered(ks, p, be))| == 0 || be.transcode(Flatten(Rendered(ks, p, be))).None?) ==>
      Commit(s, GenerateSpeech(text, d, e, be)) == s
  {
    if e == Punctuation {
      assert GenerateSpeech(text, d, e, be) == GeneratePunctuated(text, ProfileOf(d), be);
      PunctuatedSpec(text, ProfileOf(d), be);
    }
  }

  /** A basic generation that fails in resampling leaves the previous
      buffer in the session next to the new sample rate, so a later `save`
      writes the previous buffer at the rate of the failed synthesis. */
  lemma SaveAfterBasicResampleFailure(s: Session, text: Text, p: WellFormedProfile, e: Emotion, be: Backend)
    requires GenerateBasic(text, p, e, be).Err?
    requires be.synthesize(ApplyTable(text, p.substitutions)).Some?
    ensures var rate := be.synthesize(ApplyTable(text, p.substitutions)).value.rate;
      Save(Commit(s, GenerateBasic(text, p, e, be))) ==
        if s.audio.Some? && rate != 0 then Some(Decoded(s.audio.value, rate)) else None
  {
  }

  /** A punctuated generation that fails in resampling has already stored
      the re-read stitched buffer, so a later `save` writes it although the
      call returned `None`. */
  lemma SaveAfterPunctuatedResampleFailure(s: Session, text: Text, p: WellFormedProfile, be: Backend)
    requires GeneratePunctuated(text, p, be).Err?
    requires GeneratePunctuated(text, p, be).error.ResampleFailed?
    ensures var f := GeneratePunctuated(text, p, be).error;
      f.kept.Some? &&
      Save(Commit(s, GeneratePunctuated(text, p, be))) == if f.rate != 0 then Some(Decoded(f.kept.value, f.rate)) else None
  {
  }
}

=== FILE: segmenter.dfy ===
/** Punctuation segmentation: `re.findall` with the pattern
    `[^P]+[P]+|\s*$` (P the terminal marks), written as a direct scanner,
    the blank-item skip of the sentence loop, and last-mark classification. */
module Segmenter {
  import opened Seqs

  /** The terminal marks: danda, question, exclamation, full stop, comma,
      semicolon, colon, double and single quote. */
  const Marks: set<char> := {'।', '?', '!', '.', ',', ';', ':', '"', '\''}

  predicate IsMark(c: char)
  {
    c in Marks
  }

  /** `t` contains no mark at all. */
  predicate NoMarks(t: seq<char>)
  {
    forall j :: 0 <= j < |t| ==> !IsMark(t[j])
  }

  /** Python's notion of whitespace (`str.isspace`, and `\s` in a str
      pattern): U+0009..U+000D, U+001C..U+0020, U+0085, U+00A0, U+1680,
      U+2000..U+200A, U+2028, U+2029, U+202F, U+205F, U+3000. */
  predicate IsSpace(c: char)
  {
    || ('\U{9}' <= c <= '\U{D}')
    || ('\U{1C}' <= c <= '\U{20}')
    || c == '\U{85}' || c == '\U{A0}' || c == '\U{1680}'
    || ('\U{2000}' <= c <= '\U{200A}')
    || c == '\U{2028}' || c == '\U{2029}' || c == '\U{202F}'
    || c == '\U{205F}' || c == '\U{3000}'
  }

  lemma MarkIsNotSpace(c: char)
    requires IsMark(c)
    ensures !IsSpace(c)
  {
  }

  /** Length of the maximal prefix of `t` made of marks (`mark`) or of
      non-marks (`!mark`). */
  function RunLength(t: Text, mark: bool): (n: nat)
    ensures n <= |t|
    ensures n < |t| ==> IsMark(t[n]) != mark
    decreases |t|
  {
    if |t| == 0 || IsMark(t[0]) != mark then 0 else 1 + RunLength(t[1..], mark)
  }

  /** A text made only of one kind of character is one run. */
  lemma {:induction false} RunLengthAll(t: Text, mark: bool)
    requires forall j :: 0 <= j < |t| ==> IsMark(t[j]) == mark
    ensures RunLength(t, mark) == |t|
    decreases |t|
  {
    if |t| > 0 {
      assert forall j :: 0 <= j < |t| - 1 ==> t[1..][j] == t[j + 1];
      RunLengthAll(t[1..], mark);
    }
  }

  /** Every character of the run is of the run's kind, so the run is maximal. */
  lemma {:induction false} RunLengthPrefix(t: Text, mark: bool)
    ensures forall j :: 0 <= j < RunLength(t, mark) ==> IsMark(t[j]) == mark
    decreases |t|
  {
    if |t| > 0 && IsMark(t[0]) == mark {
      RunLengthPrefix(t[1..], mark);
      assert forall j :: 1 <= j < RunLength(t, mark) ==> t[j] == t[1..][j - 1];
    }
  }

  /** Length of the maximal suffix of `t` made of whitespace. */
  function TrailingSpaces(t: Text): (n: nat)
    ensures n <= |t|
    ensures forall j :: |t| - n <= j < |t| ==> IsSpace(t[j])
    ensures n < |t| ==> !IsSpace(t[|t| - n - 1])
    decreases |t|
  {
    if |t| == 0 || !IsSpace(t[|t| - 1]) then 0 else 1 + TrailingSpaces(t[..|t| - 1])
  }

  /** What `\s*$` contributes at the end of a mark-free remainder `r`: it
      first matches at the start of the maximal whitespace suffix; when that
      match is non-empty, an empty match at the very end follows it. */
  function EndMatches(r: Text): seq<Text>
  {
    var n := TrailingSpaces(r);
    if n > 0 then [r[|r| - n..], []] else [[]]
  }

  /** `re.findall(r'[^P]+[P]+|\s*$', t)`. A mark where the scan stands
      matches neither alternative and is passed over; a non-mark starts a
      block of maximal non-mark run plus maximal mark run when a mark follows
      the run; otherwise only `\s*$` can match, at the end. The result is
      never empty. */
  function FindAll(t: Text): (items: seq<Text>)
    ensures |items| >= 1
    decreases |t|
  {
    if |t| == 0 then [[]]
    else if IsMark(t[0]) then FindAll(t[1..])
    else if RunLength(t, false) == |t| then EndMatches(t)
    else
      var e := BlockEnd(t);
      [t[..e]] + FindAll(t[e..])
  }

  /** Where the block at the front of `t` ends: after its maximal non-mark
      run and the maximal mark run that follows. */
  function BlockEnd(t: Text): (e: nat)
    requires |t| > 0 && !IsMark(t[0])
    ensures 0 < e <= |t|
  {
    var k := RunLength(t, false);
    k + RunLength(t[k..], true)
  }

  /** `s.lstrip()`: the suffix left after dropping leading whitespace. */
  function StripLeft(s: Text): (r: Text)
    ensures |r| <= |s| && r == s[|s| - |r|..]
    ensures forall j :: 0 <= j < |s| - |r| ==> IsSpace(s[j])
    ensures |r| > 0 ==> !IsSpace(r[0])
    decreases |s|
  {
    if |s| > 0 && IsSpace(s[0]) then StripLeft(s[1..]) else s
  }

  /** `s.rstrip()`: the prefix left after dropping trailing whitespace. */
  function StripRight(s: Text): (r: Text)
    ensures |r| <= |s| && r == s[..|r|]
    ensures forall j :: |r| <= j < |s| ==> IsSpace(s[j])
    ensures |r| > 0 ==> !IsSpace(r[|r| - 1])
    decreases |s|
  {
    if |s| > 0 && IsSpace(s[|s| - 1]) then StripRight(s[..|s| - 1]) else s
  }

  /** `s.strip()`. */
  function Strip(s: Text): Text
  {
    StripRight(StripLeft(s))
  }

  /** `not s.strip()` holds exactly for all-whitespace text. */
  lemma StripEmpty(s: Text)
    ensures Strip(s) == [] <==> forall j :: 0 <= j < |s| ==> IsSpace(s[j])
  {
    var l := StripLeft(s);
    if Strip(s) == [] {
      assert |l| == 0;
    }
  }

  /** A text ending in a non-space keeps that last character when stripped. */
  lemma StripKeepsLast(s: Text)
    requires |s| > 0 && !IsSpace(s[|s| - 1])
    ensures |Strip(s)| > 0 && Strip(s)[|Strip(s)| - 1] == s[|s| - 1]
  {
    var l := StripLeft(s);
    assert l[|l| - 1] == s[|s| - 1];
  }

  /** The items the sentence loop does not skip (`if not sentence.strip(): continue`). */
  function Kept(items: seq<Text>): seq<Text>
    decreases |items|
  {
    if |items| == 0 then []
    else if Strip(items[0]) == [] then Kept(items[1..])
    else [items[0]] + Kept(items[1..])
  }

  /** The sentences the punctuated mode synthesizes. */
  function Sentences(t: Text): seq<Text>
  {
    Kept(FindAll(t))
  }

  /** A kept segment: a non-empty run of non-marks followed by a non-empty
      run of marks and nothing else, i.e. it starts with a non-mark, ends
      with a mark, and its front block reaches its end. */
  predicate IsBlock(b: Text)
  {
    && |b| >= 2
    && !IsMark(b[0])
    && IsMark(b[|b| - 1])
    && BlockEnd(b) == |b|
  }

  /** The index just after the last mark of `t`, or 0 when `t` has none. */
  function EndOfLastMark(t: Text): (e: nat)
    ensures e <= |t|
    ensures e > 0 ==> IsMark(t[e - 1])
    ensures forall j :: e <= j < |t| ==> !IsMark(t[j])
    decreases |t|
  {
    if |t| == 0 then 0
    else if IsMark(t[|t| - 1]) then |t|
    else EndOfLastMark(t[..|t| - 1])
  }

  lemma EndOfLastMarkUnique(t: Text, e: nat)
    requires e <= |t|
    requires e > 0 ==> IsMark(t[e - 1])
    requires forall j :: e <= j < |t| ==> !IsMark(t[j])
    ensures EndOfLastMark(t) == e
  {
  }

  /** The trailing `\s*$` matches are blank, so the loop skips all of them. */
  lemma EndMatchesSkipped(r: Text)
    ensures Kept(EndMatches(r)) == []
  {
    var n := TrailingSpaces(r);
    StripEmpty([]);
    if n > 0 {
      var w := r[|r| - n..];
      assert forall j :: 0 <= j < |w| ==> w[j] == r[|r| - n + j];
      StripEmpty(w);
      assert EndMatches(r) == [w, []];
      assert Kept([w, []]) == Kept([[]]) by {
        assert [w, []][1..] == [[]];
      }
    }
  }

  /** The blocks of the scan in order, without the trailing `\s*$` items:
      what the scan yields once its blank items are dropped. */
  function Blocks(t: Text): seq<Text>
    decreases |t|
  {
    if |t| == 0 then []
    else if IsMark(t[0]) then Blocks(t[1..])
    else if RunLength(t, false) == |t| then []
    else
      var e := BlockEnd(t);
      [t[..e]] + Blocks(t[e..])
  }

  /** The leading run of marks never reaches past the last mark. */
  lemma LeadBeforeLast(t: Text)
    ensures RunLength(t, true) <= EndOfLastMark(t)
  {
    var l := RunLength(t, true);
    if l > 0 {
      RunLengthPrefix(t, true);
      assert IsMark(t[l - 1]);
    }
  }

  /** The text with its leading run of marks removed and everything after
      its last mark removed. */
  function Span(t: Text): Text
  {
    LeadBeforeLast(t);
    t[RunLength(t, true)..EndOfLastMark(t)]
  }

  lemma SpanFrom(t: Text, l: nat, e: nat)
    requires l == RunLength(t, true) && e == EndOfLastMark(t)
    ensures l <= e && Span(t) == t[l..e]
  {
    LeadBeforeLast(t);
  }

  /** Every item is a kept segment. */
  predicate AllBlocks(ks: seq<Text>)
  {
    forall i :: 0 <= i < |ks| ==> IsBlock(ks[i])
  }

  /** A slice of a suffix is a slice of the whole text. */
  lemma SliceOfSuffix(t: Text, d: nat, i: nat, j: nat)
    requires d <= |t| && i <= j <= |t| - d
    ensures t[d..][i..j] == t[d + i..d + j]
  {
    assert |t[d..][i..j]| == |t[d + i..d + j]|;
    forall x | 0 <= x < j - i
      ensures t[d..][i..j][x] == t[d + i..d + j][x]
    {
    }
  }

  /** A leading mark extends the leading run of marks by one and shifts
      the end of the last mark by one. */
  lemma MarkHead(t: Text)
    requires |t| > 0 && IsMark(t[0])
    ensures RunLength(t, true) == 1 + RunLength(t[1..], true)
    ensures EndOfLastMark(t) == 1 + EndOfLastMark(t[1..])
  {
    var u := t[1..];
    var eu := EndOfLastMark(u);
    var e := 1 + eu;
    assert IsMark(t[e - 1]) by {
      if eu > 0 {
        assert t[e - 1] == u[eu - 1];
      }
    }
    forall j | e <= j < |t|
      ensures !IsMark(t[j])
    {
      assert t[j] == u[j - 1];
    }
    EndOfLastMarkUnique(t, e);
  }

  /** A leading mark contributes no block. */
  lemma BlocksSkipMark(t: Text)
    requires |t| > 0 && IsMark(t[0])
    ensures Blocks(t) == Blocks(t[1..])
  {
  }

  /** A leading mark shifts the span by one. */
  lemma SpanMarkHead(t: Text)
    requires |t| > 0 && IsMark(t[0])
    ensures Span(t) == Span(t[1..])
  {
    var u := t[1..];
    MarkHead(t);
    LeadBeforeLast(u);
    SliceOfSuffix(t, 1, RunLength(u, true), EndOfLastMark(u));
  }

  /** The two maximal runs at the front of a text that starts with a
      non-mark and has a mark after its first run. */
  lemma FrontRuns(t: Text, k: nat, m: nat)
    requires |t| > 0 && !IsMark(t[0])
    requires k == RunLength(t, false) && k < |t|
    requires m == RunLength(t[k..], true)
    ensures 0 < k && 0 < m && k + m <= |t|
    ensures forall j :: k <= j < k + m ==> IsMark(t[j])
    ensures k + m < |t| ==> !IsMark(t[k + m])
  {
    var w := t[k..];
    assert w[0] == t[k];
    RunLengthPrefix(w, true);
    forall j | k <= j < k + m
      ensures IsMark(t[j])
    {
      assert t[j] == w[j - k];
    }
    if k + m < |t| {
      assert t[k + m] == w[m];
    }
  }

  /** A kept segment is never blank: it ends in a mark, which is not whitespace. */
  lemma BlockNotBlank(b: Text)
    requires IsBlock(b)
    ensures Strip(b) != []
  {
    MarkIsNotSpace(b[|b| - 1]);
    StripKeepsLast(b);
  }

  /** The front of a text that starts with a non-mark and has a mark after
      its first run: the two maximal runs form a block. */
  lemma FrontIsBlock(t: Text, k: nat, m: nat)
    requires |t| > 0 && !IsMark(t[0])
    requires k == RunLength(t, false) && k < |t|
    requires m == RunLength(t[k..], true)
    ensures k + m <= |t|
    ensures IsBlock(t[..k + m])
  {
    FrontRuns(t, k, m);
    RunLengthPrefix(t, false);
    var b := t[..k + m];
    assert forall j :: 0 <= j < k + m ==> b[j] == t[j];
    assert RunLength(b, false) == k by {
      NonMarkRunIs(b, k);
    }
    assert RunLength(b[k..], true) == m by {
      assert forall j :: 0 <= j < m ==> b[k..][j] == t[k + j];
      RunLengthAll(b[k..], true);
    }
    var e := BlockEnd(b);
    assert e == k + m;
  }

  lemma PrefixThroughSuffix(t: Text, n: nat, d: nat)
    requires n + d <= |t|
    ensures t[..n + d] == t[..n] + t[n..][..d]
  {
    var v := t[n..];
    forall j | n <= j < n + d
      ensures t[..n + d][j] == (t[..n] + v[..d])[j]
    {
      assert v[j - n] == t[j];
    }
  }

  /** A block at the front comes first, and the scan continues after it. */
  lemma BlockHead(t: Text, k: nat, m: nat)
    requires |t| > 0 && !IsMark(t[0])
    requires k == RunLength(t, false) && k < |t|
    requires m == RunLength(t[k..], true)
    ensures k + m <= |t|
    ensures Blocks(t) == [t[..k + m]] + Blocks(t[k + m..])
  {
    var e := BlockEnd(t);
    assert e == k + m;
    BlocksFront(t, e);
  }

  /** One step of the block scan at a non-mark with a mark later on. */
  lemma BlocksFront(t: Text, e: nat)
    requires |t| > 0 && !IsMark(t[0]) && RunLength(t, false) < |t|
    requires e == BlockEnd(t)
    ensures Blocks(t) == [t[..e]] + Blocks(t[e..])
  {
  }

  /** After a block, the end of the last mark is measured from the end of
      the block. */
  lemma EndAfterBlock(t: Text, n: nat)
    requires 0 < n <= |t| && IsMark(t[n - 1])
    ensures EndOfLastMark(t) == n + EndOfLastMark(t[n..])
  {
    var v := t[n..];
    var ev := EndOfLastMark(v);
    var e := n + ev;
    assert IsMark(t[e - 1]) by {
      if ev > 0 {
        assert t[e - 1] == v[ev - 1];
      }
    }
    forall j | e <= j < |t|
      ensures !IsMark(t[j])
    {
      assert t[j] == v[j - n];
    }
    EndOfLastMarkUnique(t, e);
  }

  /** A text without any mark has no block and an empty span. */
  lemma UnpunctuatedSpan(t: Text)
    requires RunLength(t, false) == |t|
    ensures Blocks(t) == [] && Span(t) == []
  {
    RunLengthPrefix(t, false);
    EndOfLastMarkUnique(t, 0);
  }

  /** Every block of a text is a block in the sense of `IsBlock`. */
  lemma {:induction false} BlocksAreBlocks(t: Text)
    ensures AllBlocks(Blocks(t))
    decreases |t|
  {
    if |t| == 0 {
    } else if IsMark(t[0]) {
      BlocksAreBlocks(t[1..]);
      BlocksSkipMark(t);
    } else {
      var k := RunLength(t, false);
      if k == |t| {
        UnpunctuatedSpan(t);
      } else {
        var m := RunLength(t[k..], true);
        FrontRuns(t, k, m);
        BlocksAreBlocks(t[k + m..]);
        BlocksAreBlocksFront(t, k, m);
      }
    }
  }

  lemma BlocksAreBlocksFront(t: Text, k: nat, m: nat)
    requires |t| > 0 && !IsMark(t[0])
    requires k == RunLength(t, false) && k < |t|
    requires m == RunLength(t[k..], true)
    requires k + m <= |t|
    requires AllBlocks(Blocks(t[k + m..]))
    ensures AllBlocks(Blocks(t))
  {
    var n := k + m;
    var b := t[..n];
    var rest := Blocks(t[n..]);
    assert IsBlock(b) by {
      FrontIsBlock(t, k, m);
    }
    assert Blocks(t) == [b] + rest by {
      BlockHead(t, k, m);
    }
    ConsBlocks(b, rest);
  }

  lemma ConsBlocks(b: Text, rest: seq<Text>)
    requires IsBlock(b) && AllBlocks(rest)
    ensures AllBlocks([b] + rest)
  {
    forall i | 0 <= i < |[b] + rest|
      ensures IsBlock(([b] + rest)[i])
    {
      if i > 0 {
        assert ([b] + rest)[i] == rest[i - 1];
      }
    }
  }

  /** The blocks of a text concatenated in order are exactly its span. */
  lemma {:induction false} BlocksFlatten(t: Text)
    ensures Flatten(Blocks(t)) == Span(t)
    decreases |t|
  {
    if |t| == 0 {
    } else if IsMark(t[0]) {
      BlocksFlatten(t[1..]);
      BlocksSkipMark(t);
      SpanMarkHead(t);
    } else {
      var k := RunLength(t, false);
      if k == |t| {
        UnpunctuatedSpan(t);
      } else {
        var m := RunLength(t[k..], true);
        FrontRuns(t, k, m);
        BlocksFlatten(t[k + m..]);
        BlocksFlattenFront(t, k, m);
      }
    }
  }

  lemma BlocksFlattenFront(t: Text, k: nat, m: nat)
    requires |t| > 0 && !IsMark(t[0])
    requires k == RunLength(t, false) && k < |t|
    requires m == RunLength(t[k..], true)
    requires k + m <= |t|
    requires Flatten(Blocks(t[k + m..])) == Span(t[k + m..])
    ensures Flatten(Blocks(t)) == Span(t)
  {
    var n := k + m;
    var v := t[n..];
    assert Span(t) == t[..n] + Span(v) by {
      FrontRuns(t, k, m);
      SpanAfterBlock(t, n);
    }
    assert Flatten(Blocks(t)) == t[..n] + Flatten(Blocks(v)) by {
      BlockHead(t, k, m);
      FlattenCons(t[..n], Blocks(v));
    }
  }

  /** The span of a text that starts with a block is that block followed
      by the span of the rest. */
  lemma SpanAfterBlock(t: Text, n: nat)
    requires 0 < n <= |t| && !IsMark(t[0]) && IsMark(t[n - 1])
    requires n < |t| ==> !IsMark(t[n])
    ensures Span(t) == t[..n] + Span(t[n..])
  {
    var v := t[n..];
    var ev := EndOfLastMark(v);
    assert RunLength(v, true) == 0 by {
      if n < |t| {
        assert v[0] == t[n];
      }
    }
    assert Span(v) == v[..ev] by {
      SpanFrom(v, 0, ev);
    }
    assert Span(t) == t[..n + ev] by {
      EndAfterBlock(t, n);
      SpanFrom(t, 0, n + ev);
    }
    PrefixThroughSuffix(t, n, ev);
  }

  /** Dropping the blank items of the scan leaves exactly its blocks: the
      blocks are never blank and the `\s*$` items always are. */
  lemma {:induction false} SentencesAreBlocks(t: Text)
    ensures Sentences(t) == Blocks(t)
    decreases |t|
  {
    if |t| == 0 {
      StripEmpty([]);
      assert FindAll(t) == [[]];
    } else if IsMark(t[0]) {
      SentencesAreBlocks(t[1..]);
      assert FindAll(t) == FindAll(t[1..]);
    } else if RunLength(t, false) == |t| {
      assert FindAll(t) == EndMatches(t);
      EndMatchesSkipped(t);
    } else {
      var k := RunLength(t, false);
      var m := RunLength(t[k..], true);
      var e := BlockEnd(t);
      assert e == k + m;
      assert Strip(t[..e]) != [] by {
        FrontIsBlock(t, k, m);
        BlockNotBlank(t[..e]);
      }
      SentencesAreBlocks(t[e..]);
      var items := [t[..e]] + FindAll(t[e..]);
      assert FindAll(t) == items;
      assert items[0] == t[..e] && items[1..] == FindAll(t[e..]);
    }
  }

  /** Every kept sentence is a block, and the kept sentences concatenated in
      order are exactly the text with its leading run of marks removed and
      everything after its last mark removed. */
  lemma SentencesCoverText(t: Text)
    ensures AllBlocks(Sentences(t))
    ensures Flatten(Sentences(t)) == Span(t)
  {
    SentencesAreBlocks(t);
    BlocksAreBlocks(t);
    BlocksFlatten(t);
  }

  /** No sentence is synthesized exactly when every mark of the text lies in
      its leading run of marks; in particular text without any mark yields none. */
  lemma NoSentenceIff(t: Text)
    ensures Sentences(t) == [] <==> EndOfLastMark(t) == RunLength(t, true)
    ensures NoMarks(t) ==> Sentences(t) == []
  {
    var ks := Sentences(t);
    assert Flatten(ks) == Span(t) && AllBlocks(ks) by {
      SentencesCoverText(t);
    }
    assert |Span(t)| == EndOfLastMark(t) - RunLength(t, true) by {
      SpanFrom(t, RunLength(t, true), EndOfLastMark(t));
    }
    assert ks == [] <==> Flatten(ks) == [] by {
      FlattenEmpty(ks);
      if ks != [] {
        assert IsBlock(ks[0]);
      }
    }
    if NoMarks(t) {
      EndOfLastMarkUnique(t, 0);
    }
  }

  /** The per-segment treatment of the punctuated mode. */
  datatype Treatment = Louder | Faster | Softer

  /** Classification by the last character of the stripped sentence
      (empty when blank): '?' is louder, '!' is faster, anything else softer. */
  function Classify(s: Text): Treatment
  {
    var st := Strip(s);
    if |st| > 0 && st[|st| - 1] == '?' then Louder
    else if |st| > 0 && st[|st| - 1] == '!' then Faster
    else Softer
  }

  /** For a kept segment the deciding character is the last mark of its run. */
  lemma ClassifyBlock(b: Text)
    requires IsBlock(b)
    ensures Classify(b) == Louder <==> b[|b| - 1] == '?'
    ensures Classify(b) == Faster <==> b[|b| - 1] == '!'
    ensures Classify(b) == Softer <==> b[|b| - 1] in "।.,;:\"'"
  {
    MarkIsNotSpace(b[|b| - 1]);
    StripKeepsLast(b);
  }

  lemma NonMarkRunIs(t: Text, k: nat)
    requires k < |t| && IsMark(t[k])
    requires forall j :: 0 <= j < k ==> !IsMark(t[j])
    ensures RunLength(t, false) == k
  {
    RunLengthPrefix(t, false);
  }

  lemma SingleMarkRun(t: Text)
    requires |t| > 0 && IsMark(t[0])
    requires |t| > 1 ==> !IsMark(t[1])
    ensures RunLength(t, true) == 1
  {
  }

  /** A run of non-marks closed by a single mark is split off as one
      block, and the scan continues on what follows. */
  lemma SentenceThenRest(a: Text, q: char, rest: Text)
    requires |a| > 0 && IsMark(q)
    requires NoMarks(a)
    requires |rest| > 0 ==> !IsMark(rest[0])
    ensures Blocks(a + [q] + rest) == [a + [q]] + Blocks(rest)
  {
    var u := a + [q] + rest;
    var k := |a|;
    var w := u[k..];
    assert RunLength(u, false) == k by {
      assert u[k] == q;
      assert forall j :: 0 <= j < k ==> u[j] == a[j];
      NonMarkRunIs(u, k);
    }
    assert RunLength(w, true) == 1 by {
      assert w[0] == q;
      if |rest| > 0 {
        assert w[1] == rest[0];
      }
      SingleMarkRun(w);
    }
    assert u[..k + 1] == a + [q];
    assert u[k + 1..] == rest;
    BlockHead(u, k, 1);
  }

  /** Text of the form leading mark, words, mark, words, mark, words scans
      as exactly the two punctuated sentences: the leading mark and the
      unpunctuated tail are dropped. */
  lemma TwoSentences(lead: char, a: Text, q1: char, b: Text, q2: char, tail: Text)
    requires IsMark(lead) && IsMark(q1) && IsMark(q2)
    requires |a| > 0 && |b| > 0
    requires NoMarks(a)
    requires NoMarks(b)
    requires NoMarks(tail)
    ensures Sentences([lead] + (a + [q1] + (b + [q2] + tail))) == [a + [q1], b + [q2]]
  {
    var t := [lead] + (a + [q1] + (b + [q2] + tail));
    assert Blocks(t) == [a + [q1], b + [q2]] by {
      TwoBlocks(lead, a, q1, b, q2, tail);
    }
    SentencesAreBlocks(t);
  }

  /** Text that opens with a word: two sentences, each closed by a
      single mark, then mark-free text, yield exactly the two sentences. */
  lemma TwoPlainSentences(a: Text, q1: char, b: Text, q2: char, tail: Text)
    requires IsMark(q1) && IsMark(q2)
    requires |a| > 0 && |b| > 0
    requires NoMarks(a)
    requires NoMarks(b)
    requires NoMarks(tail)
    ensures Sentences(a + [q1] + (b + [q2] + tail)) == [a + [q1], b + [q2]]
  {
    var x := a + [q1];
    var y := b + [q2];
    var v := y + tail;
    assert Blocks(v) == [y] by {
      LastSentence(b, q2, tail);
    }
    assert Blocks(x + v) == [x] + Blocks(v) by {
      assert v[0] == b[0];
      SentenceThenRest(a, q1, v);
    }
    assert [x] + [y] == [x, y];
    SentencesAreBlocks(x + v);
  }

  lemma TwoBlocks(lead: char, a: Text, q1: char, b: Text, q2: char, tail: Text)
    requires IsMark(lead) && IsMark(q1) && IsMark(q2)
    requires |a| > 0 && |b| > 0
    requires NoMarks(a)
    requires NoMarks(b)
    requires NoMarks(tail)
    ensures Blocks([lead] + (a + [q1] + (b + [q2] + tail))) == [a + [q1], b + [q2]]
  {
    var x := a + [q1];
    var y := b + [q2];
    var v := y + tail;
    var u := x + v;
    assert Blocks([lead] + u) == Blocks(u) by {
      LeadingMarkDropped(lead, u);
    }
    assert Blocks(v) == [y] by {
      LastSentence(b, q2, tail);
    }
    assert Blocks(u) == [x] + Blocks(v) by {
      assert v[0] == b[0];
      SentenceThenRest(a, q1, v);
    }
    assert [x] + [y] == [x, y];
  }

  /** A leading mark contributes no block. */
  lemma LeadingMarkDropped(lead: char, u: Text)
    requires IsMark(lead)
    ensures Blocks([lead] + u) == Blocks(u)
  {
    assert ([lead] + u)[1..] == u;
  }

  /** A sentence followed only by non-marks is the last block. */
  lemma LastSentence(b: Text, q: char, tail: Text)
    requires |b| > 0 && IsMark(q)
    requires NoMarks(b)
    requires NoMarks(tail)
    ensures Blocks(b + [q] + tail) == [b + [q]]
  {
    assert Blocks(tail) == [] by {
      RunLengthAll(tail, false);
    }
    SentenceThenRest(b, q, tail);
  }

  /** A sentence closed by a single mark is classified by that mark. */
  lemma ClassifyClosing(a: Text, q: char)
    requires |a| > 0 && IsMark(q)
    requires NoMarks(a)
    ensures Classify(a + [q]) == (if q == '?' then Louder else if q == '!' then Faster else Softer)
  {
    var s := a + [q];
    NonMarkRunIs(s, |a|);
    assert s[|a|..] == [q];
    SingleMarkRun(s[|a|..]);
    assert IsBlock(s);
    ClassifyBlock(s);
  }
}

=== FILE: seqs.dfy ===
/** Small shared vocabulary: text, an optional value and sequence flattening. */
module Seqs {

  /** A Python `str`, as its sequence of code points. */
  type Text = seq<char>

  /** A value that may be absent: `None` plays the part of Python's `None`
      (or of an exception a collaborator raises). */
  datatype Option<+T> = None | Some(value: T)

  /** Concatenation of a sequence of sequences, in order, with nothing in between. */
  function Flatten<T>(xss: seq<seq<T>>): seq<T>
    decreases |xss|
  {
    if |xss| == 0 then [] else xss[0] + Flatten(xss[1..])
  }

  /** Flattening a sequence with a first part puts that part in front. */
  lemma FlattenCons<T>(x: seq<T>, rest: seq<seq<T>>)
    ensures Flatten([x] + rest) == x + Flatten(rest)
  {
    assert ([x] + rest)[1..] == rest;
  }

  /** A flattening is empty exactly when every part is empty. */
  lemma {:induction false} FlattenEmpty<T>(xss: seq<seq<T>>)
    ensures Flatten(xss) == [] <==> forall i :: 0 <= i < |xss| ==> xss[i] == []
    decreases |xss|
  {
    if |xss| > 0 {
      FlattenEmpty(xss[1..]);
      assert forall i :: 1 <= i < |xss| ==> xss[i] == xss[1..][i - 1];
    }
  }
}
